=== FILE: README.md ===
# gltf-viewer: a verified model of the viewer's core rules

The viewer (`app.js`) loads a glTF scene and runs a few deterministic passes
over its scene tree:

- `analyzeModel` counts the model;
- `optimizeModel` gates `createLOD` and then runs `optimizeGeometry`;
- `simplifyModel` builds the reduced levels;
- the load pass marks every mesh for shadows and runs `optimizeMaterial`;
- `toggleWireframe` flips each mesh's material;
- `updateModelInfo` counts the model again for display.

It also keeps the state of two clipping modes:

- the single section plane (`enableSectionPlane`, `resetSectionPlanes`,
  `updateSectionPlaneByBox`);
- the six-face section box (`enableSectionBox`, `disableSectionBox`, the
  `objectChange` drag handler).

This project models those rules in Dafny and proves what they do.

Modules, one per file:

| module | file | what it holds |
|---|---|---|
| `Wrappers` | `wrappers.dfy` | `Option`, `Result` |
| `Scene` | `scene.dfy` | vectors, boxes, geometries, materials, the scene tree (`Group`, `Mesh`, `Lod`), the traversal order (`MeshVisits`) |
| `Arena` | `arena.dfy` | folding an update over the visited references: idempotent updates apply once, involutions by parity |
| `Analysis` | `analysis.dfy` | `analyzeModel` and the counting in `updateModelInfo` |
| `GeometryOpt` | `geometry_opt.dfy` | `optimizeGeometry` and its traversal |
| `MaterialOpt` | `material_opt.dfy` | `optimizeMaterial` and the wireframe flip |
| `Lod` | `lod.dfy` | `simplifyModel` and the three levels of `createLOD` |
| `Clipping` | `clipping.dfy` | planes, the box's face planes, the drag constant, the section-plane constant |
| `Viewer` | `viewer.dfy` | the process-wide state, its invariant, `toggleWireframe` |
| `SectionPlane` | `section_plane.dfy` | single-plane mode |
| `SectionBox` | `section_box.dfy` | six-face box mode |
| `Toolbar` | `toolbar.dfy` | the toolbar buttons, each running its listeners in registration order |
| `Loader` | `loader.dfy` | the success and error callbacks of `loadGLTF` |

How the model represents the program:

- **Shared geometries and materials.** They live in arenas (`seq`s); meshes
  hold indices into them. `clone()` shares both, so a material used by several
  meshes, or by the three LOD levels, is one arena entry.
- **Traversal.** `MeshVisits(n)` lists a tree's meshes in the order `traverse`
  visits them, and every pass is a fold over that list.
- **Scene objects and renderer planes.** Objects added to the scene are
  natural-number ids, allocated from `nextId`. `renderer.clippingPlanes` is one
  of three values: `NoClip`, `SingleClip(axis)`, or `BoxClip`. `BoxClip` is
  the very array bound to `sectionBoxPlanes`, so a drag that edits a box plane
  is seen by the renderer.
- **Clipping rule.** A point `p` survives a plane when
  `normal · p + constant >= 0`.
- **Box normals.** `App.boxNormals` is fixed for a run and says which face
  normals the box code uses. `Written` is the program as written: outward
  normals in the initial planes and in the drag handler. `Inward` is the
  correction from the findings below. Every box and toolbar property is stated
  for `Written`, and the corrected behaviour for `Inward`.
- **Load failures.** A load ends either in the success callback or in the
  error callback. The loader also sends an exception thrown inside the success
  callback to the error callback. That callback alerts the user and calls
  `onComplete` on whatever state the success callback had already changed.
  Each outcome records whether the alert was raised and how many times
  `onComplete` was called.
- **Parameters.** Coordinates are `real`. The model's world bounds
  (`Box3.setFromObject`) and the handle's relative screen position are
  parameters.

Behaviour of `app.js` that a reader might expect otherwise, kept as written:

- The analysis does not floor triangle counts. Only the printed total is
  floored (`Analysis.InfoAgreesWithAnalysis`). The analysed total of an indexed
  mesh can exceed its vertex count (`Analysis.CubeStats`).
- A new load does not rebuild or clear the section box
  (`Loader.LoadKeepsSectionState`).
- Enabling the box twice leaks the old transform controls in the scene
  (`SectionBox.EnableTwiceLeaksControls`).
- A completed load has no generation guard. The last callback to run installs
  its model.

## Model

| member | source | states |
|---|---|---|
| `Analysis.Tally` | app.js:504-513 | one mesh per visited geometry; the triangle total is never negative |
| `Analysis.AnalyzeModel` | app.js:499-517 | `meshCount` is the number of visited meshes that have a geometry; triangles are never negative |
| `Analysis.InfoTally` | app.js:384-396 | the display traversal counts every visited mesh, with or without geometry; the triangle total is never negative |
| `Analysis.ModelInfoOf` | app.js:373-400 | the printed mesh count is the number of visited meshes; the printed triangle total is a whole number, never negative |
| `Analysis.InfoTallyIsTally` | app.js:384-396 | the display count is the analysis tally over the same geometries, plus one per mesh without geometry |
| `Analysis.InfoAgreesWithAnalysis` | app.js:384-400 | printed mesh count = analysed count + meshes without geometry; same vertices; printed triangles = floor of the unfloored analysed total |
| `Analysis.TraversalTally` | app.js:499-516 | the callback's front-to-back accumulation from zero totals yields exactly `Tally`, so the totals do not depend on the order of accumulation |
| `Analysis.TallyFromAdds` | app.js:504-513 | running the traversal from any running totals adds exactly the tally of the visited geometries to them |
| `Analysis.TallyConcat` | app.js:504-513 | the tally of two visit lists joined is the component-wise sum of their tallies |
| `Analysis.TallyPointwise` | app.js:504-513 | the tally depends only on each geometry's position count and index count |
| `Analysis.AnalyzeFrame` | app.js:499-517 | two arenas that agree on the counts of the geometries a tree uses give the same analysis |
| `Analysis.UnflooredTriangles` | app.js:509-512 | a non-indexed mesh of 4 positions contributes 4/3 triangles, and the printed total shows 1 |
| `Analysis.CubeStats` | app.js:504-513 | an indexed cube of 8 positions and 36 indices yields 12 triangles, 8 vertices and 1 mesh: more triangles than vertices |
| `Arena.IdempotentAppliedOnce` | app.js:491-496 | an idempotent in-place update run once per visit leaves each shared object updated once if visited, unchanged otherwise |
| `Arena.InvolutionParity` | app.js:429-433 | a self-inverse update run once per visit leaves an object changed exactly when it was visited an odd number of times |
| `GeometryOpt.IdentityIndex` | app.js:576-579 | the synthesized index is `[0, …, n-1]` |
| `GeometryOpt.OptimizeGeometry` | app.js:561-583 | position count kept; normals and bounds present; an index exists afterwards iff it existed or there are more than 65536 positions; an existing index is untouched; a new one is the identity; the triangle source is unchanged |
| `GeometryOpt.OptimizeGeometryInPlace` | app.js:572-582 | the loop that pushes `0 … n-1` computes exactly `OptimizeGeometry` |
| `GeometryOpt.OptimizeGeometryIdempotent` | app.js:561-583 | optimizing twice equals optimizing once |
| `GeometryOpt.OptimizeGeometries` | app.js:491-496 | the geometry traversal keeps the arena's size; `SharedGeometryOptimizedOnce` states what each entry becomes |
| `GeometryOpt.SharedGeometryOptimizedOnce` | app.js:491-496 | after the traversal, each arena geometry is optimized once if some mesh uses it, unchanged otherwise |
| `GeometryOpt.OptimizeGeometriesKeepsStats` | app.js:491-496 | the geometry pass never changes any tree's analysis |
| `MaterialOpt.OptimizeMaterial` | app.js:586-609 | metalness, roughness and wireframe kept; black emissive clears emissive and its map, any other keeps both; a map over 2048 in either dimension gets trilinear mipmapping with its image kept; a smaller map is untouched |
| `MaterialOpt.OptimizeMaterialIdempotent` | app.js:586-609 | optimizing twice equals optimizing once |
| `MaterialOpt.OptimizeMaterials` | app.js:298-311 | the material pass of the load traversal keeps the arena's size; `SharedMaterialOptimizedOnce` states what each entry becomes |
| `MaterialOpt.SharedMaterialOptimizedOnce` | app.js:306-309 | after the load pass each material is optimized once if some mesh uses it, unchanged otherwise |
| `MaterialOpt.ToggleWireframes` | app.js:429-433 | the toggle traversal keeps the arena's size; `ToggleParity` states what each entry becomes |
| `MaterialOpt.ToggleParity` | app.js:427-435 | a material's wireframe flag ends flipped iff the number of meshes using it is odd; nothing else changes |
| `MaterialOpt.SharedPairToggleIsNoOp` | app.js:427-435 | two meshes sharing one material: the toggle leaves the material as it was |
| `Viewer.ActivePlanes` | app.js:797-811 | the planes the renderer clips with: none, the one section plane of the axis, or the very box plane array (app.js:844) |
| `Viewer.InitialInv` | app.js:9-15 | the start-up state satisfies the invariant and clips nothing |
| `Viewer.ToggleWireframe` | app.js:427-435 | without a model nothing changes; with one, only materials change, each flipped by the parity of its use count |
| `Lod.Cut` | app.js:549-550 | the kept prefix is never longer than the index; for ratios in [0, 1] it has length `floor(count · ratio)` |
| `Lod.Truncated` | app.js:546-552 | a simplified clone keeps positions and flags; a non-indexed one is unchanged; an indexed one keeps a prefix of length `floor(count · ratio)` |
| `Lod.TruncateAll` | app.js:548-552 | every geometry in a list cut to the same ratio, in order |
| `Lod.SimplifyModel` | app.js:541-558 | every visited mesh gets a fresh clone appended to the arena; the old geometries are untouched; the new tree's geometries are the truncations of the old tree's, in order; the mesh shape and materials are kept |
| `Lod.TruncateAllTally` | app.js:548-552 | truncation keeps mesh and vertex counts and never adds triangles |
| `Lod.SimplifyKeepsMeshes` | app.js:541-558 | a simplified tree has the same materials, meshes without geometry, mesh count and vertices, and no more triangles |
| `Lod.BuildLod` | app.js:520-532 | three levels at distances 0, 50, 100: the model itself, then copies cut to a half and to a fifth, each with fresh geometries |
| `Loader.LevelMaterials` | app.js:522-532 | the three levels share the model's materials |
| `Loader.CreateLod` | app.js:520-538 | fails exactly when the model is not in the scene (null parent); otherwise the level set, under a new id, replaces the model in the scene and becomes current |
| `Loader.WantsLod` | app.js:480-485 | the gate: more than 100000 unfloored triangles in `analyzeModel`, and LOD enabled |
| `Loader.ReplaceModel` | app.js:533-536 | the parent drops the model and adds the level set under a fresh id, which becomes current |
| `Loader.OptimizeModel` | app.js:479-497 | `createLOD` runs only above 100000 triangles with LOD enabled; each geometry of the original tree is optimized once, the rest of the arena is untouched |
| `Loader.MarkMeshes` | app.js:298-305 | every mesh gets cast/receive shadow and frustum culling; the traversal is unchanged |
| `Loader.Detach` | app.js:284-287 | the previous model leaves the scene and nothing is current |
| `Loader.InstallModel` | app.js:284-290 | the loaded tree becomes current under a fresh id, in the scene only when attached first |
| `Loader.Finish` | app.js:295-334 | the current model enters the scene, is marked, has its materials optimized; clips, if any, replace mixer and actions; the info is counted over the loaded tree; `onComplete` is called once |
| `Loader.LoadWith` | app.js:282-347 | a load always leaves a current model; it ends in the error callback exactly when the LOD gate holds and the model was not attached first, and then on the state the success callback left; either way `onComplete` is called exactly once |
| `Loader.LoadSucceeded` | app.js:282-334 | with the model attached first, every load finishes; the new model is current, in the scene, fully marked; the old one is gone |
| `Loader.LoadSucceededAsWritten` | app.js:290-295 | in the order as written, the load ends in the error callback exactly when the LOD gate holds |
| `Loader.LoadFailed` | app.js:342-347 | the error callback raises the alert, calls `onComplete` once and leaves the state as it finds it |
| `Loader.LoadLowPoly` | app.js:282-311 | below the gate the loaded tree itself is installed, its geometries optimized, and both orders agree |
| `Loader.LoadHighPoly` | app.js:520-538 | above the gate three levels at 0, 50, 100 are installed, the first being the loaded tree; the loaded root is not in the scene |
| `Loader.AsWrittenHighPolyThrows` | app.js:290-346 | as written, above the gate the error callback alerts the user and calls `onComplete` once, after the old model was removed: the new tree is current but not in the scene, its geometries and materials not optimized |
| `Loader.AsWrittenThrowsOnLargeMesh` | app.js:483-485 | one non-indexed mesh of 300003 positions with LOD on: the written order ends in the error callback, the corrected order finishes |
| `Loader.LoadReportsAnalysis` | app.js:373-400 | the printed info agrees with `analyzeModel` of the loaded tree before optimization |
| `Loader.LoadOptimizesGeometries` | app.js:491-496 | each geometry used by the loaded tree is optimized exactly once; the rest are untouched |
| `Loader.LoadOptimizesMaterials` | app.js:298-311 | each material used by the loaded tree is optimized exactly once, however many meshes or levels share it |
| `Loader.LoadMixer` | app.js:317-326 | mixer and actions are replaced only for an asset with clips; otherwise the old mixer survives |
| `Loader.LoadKeepsSectionState` | app.js:282-334 | a load leaves section planes, box and renderer clipping as they were |
| `Loader.LoadInv` | app.js:282-347 | both load callbacks keep the invariant, in either order of the success callback |
| `Clipping.FacePlanesAsWritten` | app.js:836-843 | six planes in face order with outward normals and constants `-min`, `max` |
| `Clipping.FacePlanes` | app.js:836-843 | six planes in face order with inward normals and the same constants |
| `Clipping.KeepsFace` | app.js:836-843 | which half-space each face plane keeps, under inward and under outward normals |
| `Clipping.FacePlanesKeepBox` | app.js:836-843 | with inward normals the six planes keep exactly the box |
| `Clipping.AsWrittenKeepsMirroredBox` | app.js:836-843 | as written, a point survives iff its mirror through the origin is in the box |
| `Clipping.AsWrittenAgreesOnCentredBox` | app.js:836-843 | the two agree on boxes centred on the origin |
| `Clipping.AsWrittenClipsBoxCentre` | app.js:836-843 | box (1,1,1)–(2,2,2): the written planes cut its centre away, the inward ones keep it |
| `Clipping.FaceCenter` | app.js:847-884 | a handle sits on its face: min or max of the box along the face's axis |
| `Clipping.DragConstant` | app.js:900-906 | the dragged plane passes through the handle's position |
| `Clipping.DragKeepsSide` | app.js:900-906 | a face plane through the handle keeps the side beyond the handle, away from the box, with the written normals; with inward ones, the side towards the box |
| `Clipping.ZeroDragKeepsPlane` | app.js:900-906 | a drag of length zero reproduces the initial face plane |
| `Clipping.AsWrittenZeroDragJumps` | app.js:900-906 | as written, a zero-length drag on the left face at x = 1 moves the constant from -1 to 1 |
| `Clipping.FacePlanesOf` | app.js:836-843 | the six face planes under the chosen normals: the written ones or the inward ones |
| `Clipping.FaceSize` | app.js:849-881 | a handle is 0.01 thick along its face's axis and spans the box on the other two |
| `Clipping.Reach` | app.js:761-763 | the half-range is non-negative and at least `max` and `-min` on the axis |
| `Clipping.SectionConstant` | app.js:757-785 | the constant is `(1 - 2·driver)·reach`; the driver is `relX` for x and z and `1 - relY` for y |
| `Clipping.SectionPlaneSweep` | app.js:757-785 | the section plane keeps the points at or below `d` on its axis; `d = (1 - 2·driver)·reach`, in `[-reach, reach]` for a driver in [0, 1]; driver 0 keeps all of the box |
| `Clipping.SectionConstantRange` | app.js:761-784 | for a handle inside the viewport the constant stays within the model's reach |
| `Clipping.SectionZIgnoresRelY` | app.js:778-782 | the z plane ignores the handle's vertical position |
| `SectionPlane.ResetSectionPlanes` | app.js:808-811 | no section plane remains and the renderer clips nothing; local clipping is untouched |
| `SectionPlane.EnableSectionPlane` | app.js:789-806 | exactly one plane, normal along the negative axis, constant 0, the renderer's only plane; it keeps the points at or below 0 on the axis |
| `SectionPlane.ShowSectionBox` | app.js:713-717 | the handle drives the given axis; nothing else changes |
| `SectionPlane.HideSectionBox` | app.js:718-721 | the handle drives nothing; nothing else changes |
| `SectionPlane.UpdateSectionPlaneByBox` | app.js:746-788 | without axis or model nothing changes; otherwise only the axis plane's constant changes, to the swept value, and that plane alone is clipped with |
| `SectionBox.FaceHandle` | app.js:847-893 | handle `i` is tied to plane `i` and sits on face `i` |
| `SectionBox.FaceControl` | app.js:894-899 | each control shows exactly its face's axis |
| `SectionBox.FaceHandles` | app.js:847-893 | the six handles in face order, handle `i` with id `n + 1 + 2i` |
| `SectionBox.FaceControls` | app.js:894-908 | the six controls in face order, control `i` with id `n + 2 + 2i`, attached to handle `i` |
| `SectionBox.TearDown` | app.js:821-828 | helper and handles leave the scene; controls are disposed but stay in the scene; the lists are emptied |
| `SectionBox.BuildBox` | app.js:830-909 | helper for the bounds; the six face planes of the run's normals are clipped with, local clipping on; six handles and controls appended and added; exactly thirteen fresh ids enter the scene |
| `SectionBox.EnableSectionBox` | app.js:819-910 | without a model nothing changes; otherwise a new box on the bounds is active with the run's face planes, and a complete box stays complete |
| `SectionBox.DisableSectionBox` | app.js:911-923 | from any state: no helper, empty lists, nothing clipped, local clipping off; helper and handles leave the scene, every other object stays; controls disposed |
| `SectionBox.ObjectChange` | app.js:900-906 | the handle moves along its axis; its plane, with its normal kept, passes through the new position; other planes and handles unchanged |
| `SectionBox.ObjectChangeMovesFace` | app.js:900-906 | on a complete box, dragging face `i` to `t` keeps the box complete and moves that face to `t`, seen by the renderer; as written the plane keeps the points beyond `t`, with inward normals those on the box's side |
| `SectionBox.ReenableLeaksControls` | app.js:821-828 | re-enabling removes the old helper and handles, but the old controls remain in the scene, disposed |
| `SectionBox.EnableTwiceLeaksControls` | app.js:819-910 | enabling twice leaves one complete box with the run's six face planes, handles and controls, plus the first box's six controls in the scene |
| `SectionBox.EnableKeepsIds` | app.js:819-910 | a new box keeps every id below `nextId` and its controls apart from helper and handles |
| `SectionBox.DisableLeaksControls` | app.js:917-921 | disabling leaves every control of the box in the scene, disposed |
| `SectionBox.DisableIdempotent` | app.js:911-923 | disabling twice equals disabling once |
| `Toolbar.ClickSection` | app.js:690-701 | after an axis button: with a model the box's face planes are active (the box listener runs last); without one the single plane stays; the axis plane exists and the handle drives it |
| `Toolbar.ClickReset` | app.js:702-705 | after reset: no plane, no axis, no box, nothing clipped, local clipping off |
| `Toolbar.SectionClickKeepsBox` | app.js:925-931 | with a model, what survives an axis button is the box mirrored through the origin as written, exactly the box with inward normals |
| `Toolbar.AsWrittenClickClipsBoxCentre` | app.js:836-843 | as written, an axis button on the box (1,1,1)–(2,2,2) clips away the box's centre; with inward normals it is kept |
| `Toolbar.SectionClickWithoutModel` | app.js:819-820 | without a model, what survives is the half-space at or below 0 on the axis |
| `Toolbar.DragAfterBoxOverridesBox` | app.js:729-740 | dragging the on-screen handle after the box was built replaces the box planes by the single plane; the box stays |
| `Toolbar.ClickSectionInv` | app.js:690-701 | an axis button keeps the invariant |
| `Toolbar.ClickResetInv` | app.js:702-705 | the reset button keeps the invariant |
| `Toolbar.DragInv` | app.js:746-788 | the handle drag keeps the invariant |
| `Toolbar.ObjectChangeInv` | app.js:900-906 | a face drag keeps the invariant |
| `Toolbar.ToggleWireframeInv` | app.js:427-435 | the wireframe toggle keeps the invariant |

## Left out

- `fitCameraToObject` and `resetCamera` (app.js:352-370, 415-425): camera and orbit-control maths with `Math.sin`. No modelled state depends on them.
- File reading, object URLs, `GLTFLoader` and the DRACO decoder (app.js:244-281): I/O and foreign code. The parsed scene and clips are the `Loader.Asset` parameter.
- The progress callback and the loading indicator (app.js:336-341): DOM output only.
- What `onComplete` does (revoking the object URL, app.js:263-265), the `console.error` line and the alert's text (app.js:343-345): I/O only. The model records only that the alert is raised and how many times `onComplete` is called.
- Renderer, light, fog and control set-up, the sliders, the checkboxes and the keyboard (app.js:30-241): configuration and UI wiring. This includes the frustum-culling checkbox.
- The `animate` loop, the clock and `AnimationMixer` updates (app.js:445-473): frame-driven library code. The mixer is recorded as the id of the model it drives.
- The performance monitor (app.js:639-687): DOM output, and never called.
- Pixel clamping and bounding rectangles in the handle drag (app.js:723-754): DOM geometry. The handle's relative position is a parameter.
- `Box3.setFromObject`: vertex positions and world transforms are not modelled, so the model's bounds are a parameter.
- `mergeBufferGeometries` (app.js:612-636): it groups meshes by material and only logs.
- `material.needsUpdate = false` and the empty metalness/roughness branch (app.js:603-608): they have no effect on material state.
- Textures sit inside their material by value, so a texture shared between the `map` slots of several materials is updated in each copy. The mipmap update is idempotent and depends only on the texture, so every such copy ends in the state the shared texture would reach.
- MaterialOpt.OptimizeMaterial: a texture object that is also some material's `emissiveMap` is not modelled as shared with the `map` slot. In the program the mipmap update at app.js:588-593 changes the one `Texture` object, so every slot holding it sees the change, including an `emissiveMap` slot of the same or another material whose emissive is not black. The model updates only the `map` copy and leaves each `emissiveMap` copy as it was. Modelling that aliasing would need a texture arena as well as the material arena.
- The `Box3Helper` outline, handle materials and transform-control internals: only the ids, positions, sizes, plane indices and visible axes are modelled.
- Overlapping loads: each callback is one atomic transition, and nothing orders two of them.
- `GLTFLoader` is not part of this model. Its parser calls the success callback inside a promise chain that ends in the error callback, so an exception thrown by the success callback ends in the error callback. The model takes that routing as given.
- Floating point: triangle counts `count / 3` and the ratios 0.5 and 0.2 are exact reals. The IEEE double nearest 0.2 lies slightly above 0.2, so `Math.floor(count * 0.2)` agrees with the exact floor for index counts well below 2^50.
- Loader.CreateLod: requires the model's id to be below `nextId`. An object created before is never a new one; `Viewer.IdsBelow` keeps this true.
- Loader.LoadWith: requires `Viewer.IdsBelow`. The model's fresh id must not already be in the scene; `Viewer.Inv` keeps this true. The same requirement applies to the load lemmas.
- SectionPlane.UpdateSectionPlaneByBox: requires the handle's axis to have a plane. The source would dereference null otherwise, and `Viewer.Inv` proves it never does.

## Findings

| source | as written | input that shows it | evidently intended | confidence | as-written member | corrected member |
|---|---|---|---|---|---|---|
| app.js:836-843 | the six box planes get outward normals with constants `-min`/`max`, so under `n·p + c >= 0` they keep the box mirrored through the origin | box (1,1,1)–(2,2,2): its centre (1.5,1.5,1.5) is clipped away | inward normals, so that the planes keep exactly the box (`Clipping.FacePlanes`, which the box uses when `boxNormals` is `Inward`) | not executed | `Clipping.AsWrittenClipsBoxCentre` | `Clipping.FacePlanesKeepBox` |
| app.js:900-906 | the drag constant `-normal·pos` uses the same outward normal, inconsistent with the initial constants, so a dragged face keeps the points beyond the handle | left face of box (1,0,0)–(2,1,1), dragged by zero: the constant jumps from -1 to 1 | a zero-length drag leaves the face plane unchanged | not executed | `Clipping.AsWrittenZeroDragJumps` | `Clipping.ZeroDragKeepsPlane` |
| app.js:290-295 | `optimizeModel` runs before `scene.add`, so `createLOD` reads `model.parent` (app.js:535) while it is null | one non-indexed mesh of 300003 positions (100001 triangles) with LOD enabled: the callback throws, the loader passes the exception to the error callback, and the user is told the load failed, after the old model was removed and the new one made current but never shown | add the model to the scene before optimizing it (`Loader.LoadSucceeded`) | not executed | `Loader.AsWrittenThrowsOnLargeMesh` | `Loader.LoadHighPoly` |

=== FILE: analysis.dfy ===
/** `analyzeModel` and the counting part of `updateModelInfo`: mesh, vertex
    and triangle totals over the meshes a traversal visits. */
module Analysis {
  import opened Wrappers
  import opened Scene

  /** The object `analyzeModel` returns. Triangles are a real: each mesh adds
      its count divided by 3, and nothing is rounded. */
  datatype Stats = Stats(totalTriangles: real, totalVertices: nat, meshCount: nat)

  /** What `updateModelInfo` prints: the triangle total is floored only here. */
  datatype ModelInfo = ModelInfo(meshCount: nat, totalVertices: nat, shownTriangles: int)

  const NoStats := Stats(0.0, 0, 0)

  /** One traversal callback on a mesh with geometry `g`. */
  function AddMesh(s: Stats, g: Geometry): Stats
  {
    Stats(s.totalTriangles + (TriangleSource(g) as real) / 3.0, s.totalVertices + g.positionCount, s.meshCount + 1)
  }

  /** Totals over the geometries of the visited meshes. Real addition is exact,
      so accumulating from the back gives the same totals as the traversal
      (`TraversalTally`). */
  function Tally(gs: seq<Geometry>): (s: Stats)
    ensures s.meshCount == |gs|
    ensures s.totalTriangles >= 0.0
  {
    if |gs| == 0 then NoStats else AddMesh(Tally(gs[1..]), gs[0])
  }

  /** The totals of a traversal split in two are the sums of the totals of
      its parts, so the order of accumulation does not matter. */
  lemma {:induction false} TallyConcat(a: seq<Geometry>, b: seq<Geometry>)
    ensures Tally(a + b).totalTriangles == Tally(a).totalTriangles + Tally(b).totalTriangles
    ensures Tally(a + b).totalVertices == Tally(a).totalVertices + Tally(b).totalVertices
    ensures Tally(a + b).meshCount == Tally(a).meshCount + Tally(b).meshCount
  {
    if |a| > 0 {
      assert (a + b)[0] == a[0];
      assert (a + b)[1..] == a[1..] + b;
      TallyConcat(a[1..], b);
    } else {
      assert a + b == b;
    }
  }

  /** The traversal's own accumulation: the callback adds each visited mesh,
      front to back, to the running totals `acc`. */
  function TallyFrom(acc: Stats, gs: seq<Geometry>): Stats
    decreases |gs|
  {
    if |gs| == 0 then acc else TallyFrom(AddMesh(acc, gs[0]), gs[1..])
  }

  /** Running the traversal from any totals adds exactly `Tally` to them. */
  lemma {:induction false} TallyFromAdds(acc: Stats, gs: seq<Geometry>)
    ensures TallyFrom(acc, gs) == Stats(acc.totalTriangles + Tally(gs).totalTriangles,
                                        acc.totalVertices + Tally(gs).totalVertices,
                                        acc.meshCount + Tally(gs).meshCount)
    decreases |gs|
  {
    if |gs| > 0 {
      TallyFromAdds(AddMesh(acc, gs[0]), gs[1..]);
    }
  }

  /** The front-to-back traversal from zero totals computes `Tally`. */
  lemma TraversalTally(gs: seq<Geometry>)
    ensures TallyFrom(NoStats, gs) == Tally(gs)
  {
    TallyFromAdds(NoStats, gs);
  }

  /** `analyzeModel`: counts only the meshes that have a geometry. */
  function AnalyzeModel(root: Node, geoms: seq<Geometry>): (s: Stats)
    requires GeoRefsBelow(root, |geoms|)
    ensures s.meshCount == |GeoRefs(root)|
    ensures s.totalTriangles >= 0.0
  {
    Tally(Visited(GeoRefs(root), geoms))
  }

  lemma GeosSplit(vs: seq<MeshVisit>, count: nat)
    requires |vs| > 0 && RefsBelow(Geos(vs), count)
    ensures vs[0].geometry.Some? ==> vs[0].geometry.value < count
    ensures RefsBelow(Geos(vs[1..]), count)
  {
    var head := if vs[0].geometry.Some? then [vs[0].geometry.value] else [];
    var rest := Geos(vs[1..]);
    assert Geos(vs) == head + rest;
    if vs[0].geometry.Some? {
      assert Geos(vs)[0] == vs[0].geometry.value;
    }
    forall i | 0 <= i < |rest|
      ensures rest[i] < count
    {
      assert rest[i] == Geos(vs)[|head| + i];
    }
  }

  /** The `updateModelInfo` traversal: every mesh is counted, with or without geometry. */
  function InfoTally(vs: seq<MeshVisit>, geoms: seq<Geometry>): (s: Stats)
    requires RefsBelow(Geos(vs), |geoms|)
    ensures s.meshCount == |vs|
    ensures s.totalTriangles >= 0.0
  {
    if |vs| == 0 then NoStats
    else
      GeosSplit(vs, |geoms|);
      var rest := InfoTally(vs[1..], geoms);
      if vs[0].geometry.Some? then AddMesh(rest, geoms[vs[0].geometry.value])
      else rest.(meshCount := rest.meshCount + 1)
  }

  /** `updateModelInfo`: every visited mesh is counted, and the printed
      triangle total is a whole number, never negative. */
  function ModelInfoOf(root: Node, geoms: seq<Geometry>): (info: ModelInfo)
    requires GeoRefsBelow(root, |geoms|)
    ensures info.meshCount == |MeshVisits(root)|
    ensures info.shownTriangles >= 0
  {
    var t := InfoTally(MeshVisits(root), geoms);
    ModelInfo(t.meshCount, t.totalVertices, t.totalTriangles.Floor)
  }

  lemma {:induction false} InfoTallyIsTally(vs: seq<MeshVisit>, geoms: seq<Geometry>)
    requires RefsBelow(Geos(vs), |geoms|)
    ensures InfoTally(vs, geoms) == Tally(Visited(Geos(vs), geoms)).(meshCount := |Geos(vs)| + Bare(vs))
  {
    if |vs| > 0 {
      GeosSplit(vs, |geoms|);
      InfoTallyIsTally(vs[1..], geoms);
      if vs[0].geometry.Some? {
        var v := Visited(Geos(vs), geoms);
        assert Geos(vs) == [vs[0].geometry.value] + Geos(vs[1..]);
        assert v[1..] == Visited(Geos(vs[1..]), geoms);
      } else {
        assert Geos(vs) == Geos(vs[1..]);
      }
    }
  }

  /** The printed model information and `analyzeModel` walk the same meshes but
      disagree on what a mesh is: the printed mesh count also includes meshes
      without geometry. Vertex totals agree, and the printed triangle count is
      the analysed total rounded down. */
  lemma InfoAgreesWithAnalysis(root: Node, geoms: seq<Geometry>)
    requires GeoRefsBelow(root, |geoms|)
    ensures ModelInfoOf(root, geoms).meshCount == AnalyzeModel(root, geoms).meshCount + Bare(MeshVisits(root))
    ensures ModelInfoOf(root, geoms).totalVertices == AnalyzeModel(root, geoms).totalVertices
    ensures ModelInfoOf(root, geoms).shownTriangles == AnalyzeModel(root, geoms).totalTriangles.Floor
  {
    InfoTallyIsTally(MeshVisits(root), geoms);
  }

  /** Totals depend only on each geometry's position count and triangle source. */
  lemma {:induction false} TallyPointwise(a: seq<Geometry>, b: seq<Geometry>)
    requires |a| == |b|
    requires forall i :: 0 <= i < |a| ==> a[i].positionCount == b[i].positionCount && TriangleSource(a[i]) == TriangleSource(b[i])
    ensures Tally(a) == Tally(b)
  {
    if |a| > 0 {
      TallyPointwise(a[1..], b[1..]);
    }
  }

  /** Two geometry arenas that agree on the counts of every geometry a tree uses
      give that tree the same analysis. */
  lemma AnalyzeFrame(root: Node, g1: seq<Geometry>, g2: seq<Geometry>)
    requires GeoRefsBelow(root, |g1|) && GeoRefsBelow(root, |g2|)
    requires forall i :: 0 <= i < |GeoRefs(root)| ==>
      var r := GeoRefs(root)[i];
      g1[r].positionCount == g2[r].positionCount && TriangleSource(g1[r]) == TriangleSource(g2[r])
    ensures AnalyzeModel(root, g1) == AnalyzeModel(root, g2)
  {
    TallyPointwise(Visited(GeoRefs(root), g1), Visited(GeoRefs(root), g2));
  }

  /** Triangles are not rounded: a non-indexed mesh with 4 positions adds 4/3,
      while the printed information shows 1. */
  lemma UnflooredTriangles()
    ensures var root := Mesh(Some(0), None, MeshFlags(false, false, true), []);
            var geoms := [Geometry(4, None, false, false)];
            && AnalyzeModel(root, geoms) == Stats(4.0 / 3.0, 4, 1)
            && ModelInfoOf(root, geoms).shownTriangles == 1
  {
    var root := Mesh(Some(0), None, MeshFlags(false, false, true), []);
    var geoms := [Geometry(4, None, false, false)];
    assert MeshVisits(root) == [MeshVisit(Some(0), None)];
    assert GeoRefs(root) == [0];
    assert Visited([0], geoms) == geoms;
    InfoAgreesWithAnalysis(root, geoms);
  }

  /** A cube of 8 positions and 36 indices under a group: one mesh, 8 vertices, 12 triangles. */
  lemma CubeStats(index: seq<nat>)
    requires |index| == 36
    ensures var root := Group([Mesh(Some(0), Some(0), MeshFlags(false, false, true), [])]);
            AnalyzeModel(root, [Geometry(8, Some(index), true, true)]) == Stats(12.0, 8, 1)
  {
    var mesh := Mesh(Some(0), Some(0), MeshFlags(false, false, true), []);
    var root := Group([mesh]);
    var geoms := [Geometry(8, Some(index), true, true)];
    assert MeshVisits(mesh) == [MeshVisit(Some(0), Some(0))];
    assert [mesh][1..] == [];
    assert MeshVisitsSeq([mesh]) == MeshVisits(mesh) + MeshVisitsSeq([]);
    assert MeshVisits(root) == [MeshVisit(Some(0), Some(0))];
    assert Geos([MeshVisit(Some(0), Some(0))]) == [0] + Geos([]);
    assert GeoRefs(root) == [0];
    assert Visited([0], geoms) == geoms;
    assert TriangleSource(geoms[0]) == 36;
    assert geoms[1..] == [];
    assert Tally(geoms) == AddMesh(NoStats, geoms[0]);
  }
}

=== FILE: arena.dfy ===
/** Shared objects live in an arena and are named by index. A traversal that
    calls an in-place update on the object behind every visited reference
    applies the update once per visit, so an object shared by k visited
    nodes is updated k times. */
module Arena {

  /** Apply `f` to the entry named by `k`; a reference outside the arena names nothing. */
  function UpdateAt<T>(arena: seq<T>, k: nat, f: T -> T): (r: seq<T>)
    ensures |r| == |arena|
    ensures forall j :: 0 <= j < |arena| ==> r[j] == (if j == k then f(arena[j]) else arena[j])
  {
    if k < |arena| then arena[k := f(arena[k])] else arena
  }

  /** Apply `f` at each visited reference, in visiting order. */
  function ApplyAtEach<T>(visits: seq<nat>, arena: seq<T>, f: T -> T): (r: seq<T>)
    ensures |r| == |arena|
  {
    if |visits| == 0 then arena else ApplyAtEach(visits[1..], UpdateAt(arena, visits[0], f), f)
  }

  /** How often `k` is visited. */
  function Count(visits: seq<nat>, k: nat): nat
  {
    if |visits| == 0 then 0 else (if visits[0] == k then 1 else 0) + Count(visits[1..], k)
  }

  ghost predicate Idempotent<T(!new)>(f: T -> T)
  {
    forall x :: f(f(x)) == f(x)
  }

  ghost predicate Involution<T(!new)>(f: T -> T)
  {
    forall x :: f(f(x)) == x
  }

  /** For an idempotent update, visiting an entry any positive number of times
      is the same as updating it once, and unvisited entries are untouched. */
  lemma {:induction false} IdempotentAppliedOnce<T(!new)>(visits: seq<nat>, arena: seq<T>, f: T -> T, k: nat)
    requires Idempotent(f)
    requires k < |arena|
    ensures ApplyAtEach(visits, arena, f)[k] == if k in visits then f(arena[k]) else arena[k]
  {
    if |visits| > 0 {
      var a1 := UpdateAt(arena, visits[0], f);
      IdempotentAppliedOnce(visits[1..], a1, f, k);
      assert k in visits <==> k == visits[0] || k in visits[1..] by {
        assert visits == [visits[0]] + visits[1..];
      }
      if k == visits[0] && k in visits[1..] {
        assert f(f(arena[k])) == f(arena[k]);
      }
    }
  }

  /** For an update that undoes itself, an entry ends up updated exactly when
      it was visited an odd number of times. */
  lemma {:induction false} InvolutionParity<T(!new)>(visits: seq<nat>, arena: seq<T>, f: T -> T, k: nat)
    requires Involution(f)
    requires k < |arena|
    ensures ApplyAtEach(visits, arena, f)[k] == if Count(visits, k) % 2 == 1 then f(arena[k]) else arena[k]
  {
    if |visits| > 0 {
      var a1 := UpdateAt(arena, visits[0], f);
      InvolutionParity(visits[1..], a1, f, k);
      if k == visits[0] {
        assert f(f(arena[k])) == arena[k];
      }
    }
  }
}

=== FILE: clipping.dfy ===
/** Clipping planes (`THREE.Plane`), the six face planes of the section box,
    the drag update of a face, and the single section plane's constant.
    The renderer keeps a point `p` exactly when `normal · p + constant >= 0`. */
module Clipping {
  import opened Scene

  datatype Plane = Plane(normal: Vec3, constant: real)

  predicate Keeps(pl: Plane, p: Vec3)
  {
    Dot(pl.normal, p) + pl.constant >= 0.0
  }

  /** What survives a list of clipping planes: the points every plane keeps. */
  predicate KeptByAll(planes: seq<Plane>, p: Vec3)
  {
    forall i :: 0 <= i < |planes| ==> Keeps(planes[i], p)
  }

  datatype Face = Left | Right | Bottom | Top | Back | Front

  /** The faces in the order of the source's plane and handle lists. */
  const Faces: seq<Face> := [Left, Right, Bottom, Top, Back, Front]

  function FaceAxis(f: Face): Axis
  {
    match f
    case Left => X
    case Right => X
    case Bottom => Y
    case Top => Y
    case Back => Z
    case Front => Z
  }

  predicate IsMaxFace(f: Face)
  {
    f == Right || f == Top || f == Front
  }

  /** The normal the source gives each face: outward, away from the box. */
  function FaceNormalAsWritten(f: Face): Vec3
  {
    Unit(FaceAxis(f), if IsMaxFace(f) then 1.0 else -1.0)
  }

  /** The inward normal, under which the face's plane keeps the box's side. */
  function FaceNormal(f: Face): Vec3
  {
    Unit(FaceAxis(f), if IsMaxFace(f) then -1.0 else 1.0)
  }

  /** The constant of each face plane: `-min` on the low faces, `max` on the high ones. */
  function FaceConstant(b: Box, f: Face): real
  {
    if IsMaxFace(f) then Get(b.max, FaceAxis(f)) else -Get(b.min, FaceAxis(f))
  }

  function MirrorPoint(p: Vec3): Vec3
  {
    Vec3(-p.x, -p.y, -p.z)
  }

  /** The six planes `enableSectionBox` installs, as written. */
  function FacePlanesAsWritten(b: Box): (ps: seq<Plane>)
    ensures |ps| == 6
    ensures forall i :: 0 <= i < 6 ==> ps[i] == Plane(FaceNormalAsWritten(Faces[i]), FaceConstant(b, Faces[i]))
  {
    seq(6, i requires 0 <= i < 6 => Plane(FaceNormalAsWritten(Faces[i]), FaceConstant(b, Faces[i])))
  }

  /** The six face planes with inward normals and the source's constants. */
  function FacePlanes(b: Box): (ps: seq<Plane>)
    ensures |ps| == 6
    ensures forall i :: 0 <= i < 6 ==> ps[i] == Plane(FaceNormal(Faces[i]), FaceConstant(b, Faces[i]))
  {
    seq(6, i requires 0 <= i < 6 => Plane(FaceNormal(Faces[i]), FaceConstant(b, Faces[i])))
  }

  /** Which normals the box code gives its faces: `Written` are the outward
      normals of `app.js`, `Inward` the corrected ones. */
  datatype Normals = Written | Inward

  function FaceNormalOf(nm: Normals, f: Face): (n: Vec3)
    ensures n == if nm == Written then FaceNormalAsWritten(f) else FaceNormal(f)
    ensures Abs(Get(n, FaceAxis(f))) == 1.0
    ensures forall a: Axis :: a != FaceAxis(f) ==> Get(n, a) == 0.0
  {
    match nm
    case Written => FaceNormalAsWritten(f)
    case Inward => FaceNormal(f)
  }

  /** The six face planes under either set of normals. */
  function FacePlanesOf(nm: Normals, b: Box): (ps: seq<Plane>)
    ensures |ps| == 6
    ensures forall i :: 0 <= i < 6 ==> ps[i] == Plane(FaceNormalOf(nm, Faces[i]), FaceConstant(b, Faces[i]))
    ensures ps == if nm == Written then FacePlanesAsWritten(b) else FacePlanes(b)
  {
    match nm
    case Written => FacePlanesAsWritten(b)
    case Inward => FacePlanes(b)
  }

  lemma KeepsFace(b: Box, f: Face, p: Vec3)
    ensures Keeps(Plane(FaceNormal(f), FaceConstant(b, f)), p) <==>
      if IsMaxFace(f) then Get(p, FaceAxis(f)) <= Get(b.max, FaceAxis(f)) else Get(b.min, FaceAxis(f)) <= Get(p, FaceAxis(f))
    ensures Keeps(Plane(FaceNormalAsWritten(f), FaceConstant(b, f)), p) <==>
      if IsMaxFace(f) then -Get(b.max, FaceAxis(f)) <= Get(p, FaceAxis(f)) else Get(p, FaceAxis(f)) <= -Get(b.min, FaceAxis(f))
  {
    DotUnit(FaceAxis(f), if IsMaxFace(f) then -1.0 else 1.0, p);
    DotUnit(FaceAxis(f), if IsMaxFace(f) then 1.0 else -1.0, p);
  }

  /** With inward normals the six planes keep exactly the box. */
  lemma FacePlanesKeepBox(b: Box, p: Vec3)
    ensures KeptByAll(FacePlanes(b), p) <==> InBox(b, p)
  {
    var ps := FacePlanes(b);
    forall i | 0 <= i < 6 {
      KeepsFace(b, Faces[i], p);
    }
    if InBox(b, p) {
      assert KeptByAll(ps, p);
    }
    if KeptByAll(ps, p) {
      assert Keeps(ps[0], p) && Keeps(ps[1], p) && Keeps(ps[2], p);
      assert Keeps(ps[3], p) && Keeps(ps[4], p) && Keeps(ps[5], p);
    }
  }

  /** As written, the six planes keep the box mirrored through the origin:
      a point survives exactly when its negation lies in the box. */
  lemma AsWrittenKeepsMirroredBox(b: Box, p: Vec3)
    ensures KeptByAll(FacePlanesAsWritten(b), p) <==> InBox(b, MirrorPoint(p))
  {
    var ps := FacePlanesAsWritten(b);
    forall i | 0 <= i < 6 {
      KeepsFace(b, Faces[i], p);
    }
    if InBox(b, MirrorPoint(p)) {
      assert KeptByAll(ps, p);
    }
    if KeptByAll(ps, p) {
      assert Keeps(ps[0], p) && Keeps(ps[1], p) && Keeps(ps[2], p);
      assert Keeps(ps[3], p) && Keeps(ps[4], p) && Keeps(ps[5], p);
    }
  }

  /** The two agree on boxes centred on the origin. */
  lemma AsWrittenAgreesOnCentredBox(b: Box, p: Vec3)
    requires b.min == MirrorPoint(b.max)
    ensures KeptByAll(FacePlanesAsWritten(b), p) <==> KeptByAll(FacePlanes(b), p)
  {
    AsWrittenKeepsMirroredBox(b, p);
    FacePlanesKeepBox(b, p);
  }

  /** The box from (1,1,1) to (2,2,2): its centre is cut away by the planes as
      written, and kept by the inward ones. */
  lemma AsWrittenClipsBoxCentre()
    ensures var b := Box(Vec3(1.0, 1.0, 1.0), Vec3(2.0, 2.0, 2.0));
            var c := Vec3(1.5, 1.5, 1.5);
            InBox(b, c) && !KeptByAll(FacePlanesAsWritten(b), c) && KeptByAll(FacePlanes(b), c)
  {
    var b := Box(Vec3(1.0, 1.0, 1.0), Vec3(2.0, 2.0, 2.0));
    var c := Vec3(1.5, 1.5, 1.5);
    AsWrittenKeepsMirroredBox(b, c);
    FacePlanesKeepBox(b, c);
  }

  /** The centre of a face, where its drag handle is placed. */
  function FaceCenter(b: Box, f: Face): (c: Vec3)
    ensures Get(c, FaceAxis(f)) == if IsMaxFace(f) then Get(b.max, FaceAxis(f)) else Get(b.min, FaceAxis(f))
  {
    var mid := Vec3((b.min.x + b.max.x) / 2.0, (b.min.y + b.max.y) / 2.0, (b.min.z + b.max.z) / 2.0);
    With(mid, FaceAxis(f), if IsMaxFace(f) then Get(b.max, FaceAxis(f)) else Get(b.min, FaceAxis(f)))
  }

  /** The extent of a face handle: the box's size, 0.01 thick along the face's axis. */
  function FaceSize(b: Box, f: Face): (s: Vec3)
    ensures Get(s, FaceAxis(f)) == 0.01
    ensures forall a: Axis :: a != FaceAxis(f) ==> Get(s, a) == Get(b.max, a) - Get(b.min, a)
  {
    With(Vec3(b.max.x - b.min.x, b.max.y - b.min.y, b.max.z - b.min.z), FaceAxis(f), 0.01)
  }

  /** The `objectChange` update: the plane through the handle's position. */
  function DragConstant(normal: Vec3, pos: Vec3): (c: real)
    ensures Dot(normal, pos) + c == 0.0
  {
    -Dot(normal, pos)
  }

  /** The `objectChange` plane of face `f` through the handle position `pos`.
      With the source's outward normal it keeps the side of `pos` away from
      the box; with the inward normal, the side towards the box's interior. */
  lemma DragKeepsSide(nm: Normals, f: Face, pos: Vec3, p: Vec3)
    ensures var n := FaceNormalOf(nm, f);
            var a := FaceAxis(f);
            var towardsMax := (nm == Written) == IsMaxFace(f);
            Keeps(Plane(n, DragConstant(n, pos)), p) <==>
              if towardsMax then Get(pos, a) <= Get(p, a) else Get(p, a) <= Get(pos, a)
  {
    var s := Get(FaceNormalOf(nm, f), FaceAxis(f));
    assert FaceNormalOf(nm, f) == Unit(FaceAxis(f), s);
    DotUnit(FaceAxis(f), s, p);
    DotUnit(FaceAxis(f), s, pos);
  }

  /** A drag of length zero reproduces the face plane the box started with. */
  lemma ZeroDragKeepsPlane(b: Box, f: Face)
    ensures DragConstant(FaceNormal(f), FaceCenter(b, f)) == FaceConstant(b, f)
  {
    var s := if IsMaxFace(f) then -1.0 else 1.0;
    DotUnit(FaceAxis(f), s, FaceCenter(b, f));
  }

  /** As written, a drag of length zero on the left face of a box whose left
      side is at x = 1 moves the plane's constant from -1 to 1. */
  lemma AsWrittenZeroDragJumps()
    ensures var b := Box(Vec3(1.0, 0.0, 0.0), Vec3(2.0, 1.0, 1.0));
            && FaceConstant(b, Left) == -1.0
            && DragConstant(FaceNormalAsWritten(Left), FaceCenter(b, Left)) == 1.0
  {
  }

  /** The normal of the single section plane for `axis`: the negative axis. */
  function SectionNormal(a: Axis): Vec3
  {
    Unit(a, -1.0)
  }

  function Abs(x: real): real
  {
    if x < 0.0 then -x else x
  }

  /** The half-range of the section constant: the larger distance of the box's
      two sides along `a` from the origin. */
  function Reach(b: Box, a: Axis): (m: real)
    ensures m >= 0.0
    ensures m >= Get(b.max, a) && m >= -Get(b.min, a)
  {
    var lo, hi := Abs(Get(b.min, a)), Abs(Get(b.max, a));
    if lo >= hi then lo else hi
  }

  /** `updateSectionPlaneByBox`: the constant for a handle whose centre sits at
      the relative screen position (`relX`, `relY`). Both x and z follow `relX`;
      y follows `relY`, with the sign flipped. */
  function SectionConstant(a: Axis, relX: real, relY: real, b: Box): (d: real)
    ensures d == (1.0 - 2.0 * Driver(a, relX, relY)) * Reach(b, a)
  {
    var m := Reach(b, a);
    match a
    case X => assert -(relX * 2.0 - 1.0) == 1.0 - 2.0 * relX; -(relX * 2.0 - 1.0) * m
    case Y => assert -(1.0 - relY * 2.0) == 1.0 - 2.0 * (1.0 - relY); -(1.0 - relY * 2.0) * m
    case Z => assert -(relX * 2.0 - 1.0) == 1.0 - 2.0 * relX; -(relX * 2.0 - 1.0) * m
  }

  /** The position along `a` that drives the section plane. */
  function Driver(a: Axis, relX: real, relY: real): real
  {
    if a == Y then 1.0 - relY else relX
  }

  /** The section plane keeps the points at or below `d` along its axis; for a
      driver in [0, 1] that is a level in [-reach, reach], sweeping linearly
      from keeping all of the box (driver 0) to the level -reach (driver 1). */
  lemma SectionPlaneSweep(a: Axis, relX: real, relY: real, b: Box, p: Vec3)
    ensures var d := SectionConstant(a, relX, relY, b);
      && (Keeps(Plane(SectionNormal(a), d), p) <==> Get(p, a) <= d)
      && d == (1.0 - 2.0 * Driver(a, relX, relY)) * Reach(b, a)
      && (0.0 <= Driver(a, relX, relY) <= 1.0 ==> -Reach(b, a) <= d <= Reach(b, a))
      && (Driver(a, relX, relY) == 0.0 && InBox(b, p) ==> Keeps(Plane(SectionNormal(a), d), p))
  {
    DotUnit(a, -1.0, p);
    if 0.0 <= Driver(a, relX, relY) <= 1.0 {
      SectionConstantRange(a, relX, relY, b);
    }
  }

  /** For a driver in [0, 1] the constant stays within the model's reach. */
  lemma SectionConstantRange(a: Axis, relX: real, relY: real, b: Box)
    requires 0.0 <= Driver(a, relX, relY) <= 1.0
    ensures -Reach(b, a) <= SectionConstant(a, relX, relY, b) <= Reach(b, a)
  {
    var m := Reach(b, a);
    var k := 1.0 - 2.0 * Driver(a, relX, relY);
    assert SectionConstant(a, relX, relY, b) == k * m;
    MulNonneg(1.0 - k, m);
    MulNonneg(1.0 + k, m);
    assert (1.0 - k) * m == m - k * m;
    assert (1.0 + k) * m == m + k * m;
  }

  lemma MulNonneg(x: real, y: real)
    requires x >= 0.0 && y >= 0.0
    ensures x * y >= 0.0
  {
  }

  /** The z plane ignores the vertical position of the handle. */
  lemma SectionZIgnoresRelY(relX: real, y1: real, y2: real, b: Box)
    ensures SectionConstant(Z, relX, y1, b) == SectionConstant(Z, relX, y2, b)
  {
  }
}

=== FILE: geometry_opt.dfy ===
/** `optimizeGeometry`: normals and bounding volumes are computed, and a large
    non-indexed geometry gets an identity index buffer so that it can be drawn
    with 32-bit indices. It never changes what is drawn. */
module GeometryOpt {
  import opened Wrappers
  import opened Scene
  import Arena
  import Analysis

  /** Geometries with more positions than this get an index buffer. */
  const WideIndexThreshold: nat := 65536

  predicate IsIdentity(s: seq<nat>, n: nat)
  {
    |s| == n && forall i :: 0 <= i < n ==> s[i] == i
  }

  /** `[0, 1, ..., n-1]`. */
  function IdentityIndex(n: nat): (s: seq<nat>)
    ensures IsIdentity(s, n)
  {
    if n == 0 then [] else IdentityIndex(n - 1) + [n - 1]
  }

  function OptimizeGeometry(g: Geometry): (r: Geometry)
    ensures r.positionCount == g.positionCount && r.hasNormals && r.hasBounds
    ensures r.index.Some? <==> g.index.Some? || g.positionCount > WideIndexThreshold
    ensures g.index.Some? ==> r.index == g.index
    ensures g.index.None? && g.positionCount > WideIndexThreshold ==> IsIdentity(r.index.value, g.positionCount)
    ensures TriangleSource(r) == TriangleSource(g)
  {
    var withIndex :=
      if g.positionCount > WideIndexThreshold && g.index.None? then Some(IdentityIndex(g.positionCount)) else g.index;
    g.(hasNormals := true, hasBounds := true, index := withIndex)
  }

  /** The same update written as the source's loop over the positions. */
  method OptimizeGeometryInPlace(g: Geometry) returns (r: Geometry)
    ensures r == OptimizeGeometry(g)
  {
    r := g;
    if !r.hasNormals {
      r := r.(hasNormals := true);
    }
    r := r.(hasBounds := true);
    var positionCount := r.positionCount;
    if positionCount > WideIndexThreshold {
      if r.index.None? {
        var indices: seq<nat> := [];
        var i := 0;
        while i < positionCount
          invariant 0 <= i <= positionCount
          invariant indices == IdentityIndex(i)
        {
          indices := indices + [i];
          i := i + 1;
        }
        r := r.(index := Some(indices));
      }
    }
  }

  /** Optimizing twice is optimizing once. */
  lemma OptimizeGeometryIdempotent(g: Geometry)
    ensures OptimizeGeometry(OptimizeGeometry(g)) == OptimizeGeometry(g)
  {
  }

  /** The traversal in `optimizeModel`: every visited mesh's geometry is optimized in place. */
  function OptimizeGeometries(root: Node, geoms: seq<Geometry>): (r: seq<Geometry>)
    ensures |r| == |geoms|
  {
    Arena.ApplyAtEach(GeoRefs(root), geoms, OptimizeGeometry)
  }

  /** A geometry shared by several meshes is visited several times, but ends up
      optimized exactly once; geometries the tree does not use are untouched. */
  lemma SharedGeometryOptimizedOnce(root: Node, geoms: seq<Geometry>, k: nat)
    requires k < |geoms|
    ensures OptimizeGeometries(root, geoms)[k] == if k in GeoRefs(root) then OptimizeGeometry(geoms[k]) else geoms[k]
  {
    forall g ensures OptimizeGeometry(OptimizeGeometry(g)) == OptimizeGeometry(g) {
      OptimizeGeometryIdempotent(g);
    }
    Arena.IdempotentAppliedOnce(GeoRefs(root), geoms, OptimizeGeometry, k);
  }

  /** Optimizing the geometries of one tree changes the analysis of no tree. */
  lemma OptimizeGeometriesKeepsStats(root: Node, other: Node, geoms: seq<Geometry>)
    requires GeoRefsBelow(other, |geoms|)
    ensures GeoRefsBelow(other, |OptimizeGeometries(root, geoms)|)
    ensures Analysis.AnalyzeModel(other, OptimizeGeometries(root, geoms)) == Analysis.AnalyzeModel(other, geoms)
  {
    var opt := OptimizeGeometries(root, geoms);
    forall i | 0 <= i < |GeoRefs(other)|
      ensures opt[GeoRefs(other)[i]].positionCount == geoms[GeoRefs(other)[i]].positionCount
      ensures TriangleSource(opt[GeoRefs(other)[i]]) == TriangleSource(geoms[GeoRefs(other)[i]])
    {
      SharedGeometryOptimizedOnce(root, geoms, GeoRefs(other)[i]);
    }
    Analysis.AnalyzeFrame(other, opt, geoms);
  }
}

=== FILE: loader.dfy ===
/** The load-completion transitions of `loadGLTF`, with the model passes it
    runs: `optimizeModel` (the LOD gate, `createLOD`, `optimizeGeometry` on
    every mesh), the shadow and material pass, the animation set-up and
    `updateModelInfo`. Fetching and parsing the file are left out; the loader's
    result is the `Asset` parameter. */
module Loader {
  import opened Wrappers
  import opened Scene
  import opened Viewer
  import Clipping
  import Arena
  import Analysis
  import Lod
  import GeometryOpt
  import MaterialOpt

  /** `optimizeModel` builds levels of detail above this many triangles. */
  const LodTriangleThreshold: real := 100000.0

  /** What the GLTF loader hands over: `gltf.scene` and `gltf.animations`. */
  datatype Asset = Asset(root: Node, clips: seq<AnimationClip>)

  /** `createLOD` reads `model.parent`, which is null for a model outside the scene. */
  datatype Fault = NullParent

  /** How a load ends: the success callback returns (`Finished`), or the error
      callback runs (`Failed`), which alerts the user that the load failed.
      The error callback runs as well when the success callback throws
      part-way, because the loader calls the success callback inside a
      promise chain that hands any exception to the error callback; the state
      is then whatever the success callback had changed before the throw.
      `completions` counts the calls of `onComplete` made by the callbacks
      that ran. */
  datatype LoadEnd =
    | Finished(app: App, info: Analysis.ModelInfo, completions: nat)
    | Failed(app: App, alerted: bool, completions: nat)

  /** The gate of `optimizeModel`. */
  predicate WantsLod(root: Node, app: App)
    requires GeoRefsBelow(root, |app.geoms|)
  {
    Analysis.AnalyzeModel(root, app.geoms).totalTriangles > LodTriangleThreshold && app.enableLod
  }

  /** The material references of a level set whose levels all have the
      mesh shape of `root`: those of `root`, three times. */
  lemma LevelMaterials(root: Node, lod: Node)
    requires lod.Lod? && |lod.children| == 3 && lod.children[0] == root
    requires EraseGeometry(MeshVisits(lod.children[1])) == EraseGeometry(MeshVisits(root))
    requires EraseGeometry(MeshVisits(lod.children[2])) == EraseGeometry(MeshVisits(root))
    ensures MatRefs(lod) == MatRefs(root) + MatRefs(root) + MatRefs(root)
  {
    var ls := lod.children;
    assert lod == Lod(lod.distances, [ls[0], ls[1], ls[2]]);
    Lod.ThreeLevelMats(lod.distances, ls[0], ls[1], ls[2]);
    EraseKeeps(MeshVisits(ls[1]), MeshVisits(root));
    EraseKeeps(MeshVisits(ls[2]), MeshVisits(root));
  }

  /** `createLOD(model)`: three levels (the model, and copies simplified to
      half and a fifth) at distances 0, 50 and 100 are added to the model's
      parent, which drops the model; the level set becomes the current model.
      A model without a parent makes it throw. */
  function CreateLod(app: App, model: Model): (r: Result<App, Fault>)
    requires GeoRefsBelow(model.root, |app.geoms|) && model.id < app.nextId
    ensures r.Err? <==> model.id !in app.scene
    ensures r.Ok? ==>
      && r.value.current.Some? && r.value.current.value.id == app.nextId
      && var lod := r.value.current.value.root;
      && lod.Lod? && lod.distances == Lod.LodDistances && |lod.children| == 3 && lod.children[0] == model.root
      && Extends(r.value.geoms, app.geoms) && GeoRefsBelow(lod, |r.value.geoms|)
      && MatRefs(lod) == MatRefs(model.root) + MatRefs(model.root) + MatRefs(model.root)
      && (forall id: ObjId :: id in r.value.scene <==> (id in app.scene && id != model.id) || id == app.nextId)
      && r.value == app.(scene := r.value.scene, nextId := app.nextId + 1, current := r.value.current, geoms := r.value.geoms)
  {
    if model.id !in app.scene then Err(NullParent)
    else
      var levels := Lod.BuildLod(model.root, app.geoms);
      LevelMaterials(model.root, levels.node);
      Ok(ReplaceModel(app, model.id, levels.node, levels.geoms))
  }

  /** The parent swaps the object `oldId` for a new object holding `root`,
      which becomes the current model. */
  function ReplaceModel(app: App, oldId: ObjId, root: Node, geoms: seq<Geometry>): (r: App)
    requires oldId < app.nextId
    ensures r.current == Some(Model(app.nextId, root)) && r.geoms == geoms
    ensures forall id: ObjId :: id in r.scene <==> (id in app.scene && id != oldId) || id == app.nextId
    ensures r == app.(scene := r.scene, nextId := app.nextId + 1, current := r.current, geoms := geoms)
  {
    app.(scene := app.scene + {app.nextId} - {oldId}, nextId := app.nextId + 1,
         current := Some(Model(app.nextId, root)), geoms := geoms)
  }

  /** `optimizeModel(model)`: levels of detail when the gate holds, then every
      geometry the original model uses is optimized once, including those the
      first level shares with it; the simplified levels' own geometries are not. */
  function OptimizeModel(app: App, model: Model): (r: Result<App, Fault>)
    requires GeoRefsBelow(model.root, |app.geoms|) && model.id < app.nextId
    ensures r.Err? <==> WantsLod(model.root, app) && model.id !in app.scene
    ensures r.Ok? && !WantsLod(model.root, app) ==> r.value == app.(geoms := r.value.geoms)
    ensures r.Ok? && WantsLod(model.root, app) ==> r.value == CreateLod(app, model).value.(geoms := r.value.geoms)
    ensures r.Ok? ==>
      && |r.value.geoms| >= |app.geoms|
      && (r.value.current.Some? ==> (GeoRefsBelow(r.value.current.value.root, |r.value.geoms|) || r.value.current == app.current))
      && forall k :: 0 <= k < |app.geoms| ==>
           r.value.geoms[k] == if k in GeoRefs(model.root) then GeometryOpt.OptimizeGeometry(app.geoms[k]) else app.geoms[k]
  {
    var lodded := if WantsLod(model.root, app) then CreateLod(app, model) else Ok(app);
    if lodded.Err? then Err(lodded.error)
    else
      var base := lodded.value;
      assert Extends(base.geoms, app.geoms);
      var geoms := GeometryOpt.OptimizeGeometries(model.root, base.geoms);
      forall k | 0 <= k < |app.geoms|
        ensures geoms[k] == if k in GeoRefs(model.root) then GeometryOpt.OptimizeGeometry(app.geoms[k]) else app.geoms[k]
      {
        GeometryOpt.SharedGeometryOptimizedOnce(model.root, base.geoms, k);
        assert base.geoms[k] == base.geoms[..|app.geoms|][k];
      }
      Ok(base.(geoms := geoms))
  }

  /** The flags the load pass gives every mesh: cast and receive shadows, frustum culled. */
  const ShadowFlags := MeshFlags(true, true, true)

  predicate AllMarked(n: Node)
  {
    (n.Mesh? ==> n.flags == ShadowFlags) && forall i :: 0 <= i < |n.children| ==> AllMarked(n.children[i])
  }

  /** The flag half of the load pass: every mesh of the tree gets `ShadowFlags`;
      nothing the traversal visits changes. */
  function MarkMeshes(n: Node): (r: Node)
    ensures AllMarked(r) && MeshVisits(r) == MeshVisits(n)
    ensures r.Lod? == n.Lod? && (n.Lod? ==> r.distances == n.distances && |r.children| == |n.children|)
    decreases n, 1
  {
    var cs := MarkChildren(n.children);
    match n
    case Group(_) => Group(cs)
    case Mesh(g, m, _, _) => Mesh(g, m, ShadowFlags, cs)
    case Lod(d, _) => Lod(d, cs)
  }

  function MarkChildren(cs: seq<Node>): (r: seq<Node>)
    ensures |r| == |cs| && MeshVisitsSeq(r) == MeshVisitsSeq(cs)
    ensures forall i :: 0 <= i < |r| ==> AllMarked(r[i])
    ensures forall i :: 0 <= i < |r| ==> r[i] == MarkMeshes(cs[i])
    decreases cs, 0
  {
    if |cs| == 0 then []
    else
      var r := [MarkMeshes(cs[0])] + MarkChildren(cs[1..]);
      assert r[1..] == MarkChildren(cs[1..]);
      r
  }

  /** The rest of the success callback once `optimizeModel` returned: the
      current model is added to the scene, its meshes are marked and their
      materials optimized, clips (if any) replace the mixer and the actions,
      and the information is counted over the loaded tree. */
  function Finish(app: App, asset: Asset): (e: LoadEnd)
    requires app.current.Some? && GeoRefsBelow(asset.root, |app.geoms|)
    ensures e.Finished? && e.app.current.Some? && e.app.current.value.id == app.current.value.id
    ensures e.completions == 1
    ensures e.app.current.value.root == MarkMeshes(app.current.value.root)
    ensures forall id: ObjId :: id in e.app.scene <==> id in app.scene || id == app.current.value.id
    ensures e.app.geoms == app.geoms && e.app.mats == MaterialOpt.OptimizeMaterials(app.current.value.root, app.mats)
    ensures |asset.clips| == 0 ==> e.app.mixer == app.mixer && e.app.animations == app.animations
    ensures |asset.clips| > 0 ==> e.app.mixer == Some(app.current.value.id) && e.app.animations == asset.clips
    ensures e.info == Analysis.ModelInfoOf(asset.root, app.geoms)
    ensures e.app == app.(scene := e.app.scene, current := e.app.current, mats := e.app.mats,
                          mixer := e.app.mixer, animations := e.app.animations)
  {
    var cur := app.current.value;
    var shown := app.(scene := app.scene + {cur.id}, current := Some(Model(cur.id, MarkMeshes(cur.root))),
                      mats := MaterialOpt.OptimizeMaterials(cur.root, app.mats));
    var animated := if |asset.clips| > 0 then shown.(mixer := Some(cur.id), animations := asset.clips) else shown;
    Finished(animated, Analysis.ModelInfoOf(asset.root, animated.geoms), 1)
  }

  /** The old model leaves the scene and `currentModel` is cleared. */
  function Detach(app: App): (r: App)
    ensures r.current.None?
    ensures forall id: ObjId :: id in r.scene <==> id in app.scene && (app.current.Some? ==> id != app.current.value.id)
    ensures r == app.(scene := r.scene, current := None)
  {
    if app.current.Some? then app.(scene := app.scene - {app.current.value.id}, current := None) else app
  }

  /** The first steps of the success callback: the previous model is removed
      and the asset's tree becomes the current model under a fresh id, added
      to the scene only when `attachFirst`. */
  function InstallModel(app: App, asset: Asset, attachFirst: bool): (r: App)
    requires IdsBelow(app)
    ensures r.current == Some(Model(app.nextId, asset.root)) && r.nextId == app.nextId + 1
    ensures app.nextId in r.scene <==> attachFirst
    ensures forall id: ObjId :: id in r.scene <==>
      (id in app.scene && (app.current.Some? ==> id != app.current.value.id)) || (attachFirst && id == app.nextId)
    ensures r == app.(scene := r.scene, current := r.current, nextId := r.nextId)
  {
    var cleared := Detach(app);
    var model := Model(cleared.nextId, asset.root);
    cleared.(current := Some(model), nextId := model.id + 1,
             scene := if attachFirst then cleared.scene + {model.id} else cleared.scene)
  }

  /** The success callback of `loadGLTF` for `asset`. As written the new model
      is added to the scene only after `optimizeModel` (`attachFirst` false);
      the corrected order adds it first. */
  function LoadWith(app: App, asset: Asset, attachFirst: bool): (e: LoadEnd)
    requires GeoRefsBelow(asset.root, |app.geoms|) && IdsBelow(app)
    ensures e.app.current.Some?
    ensures e.Failed? <==> WantsLod(asset.root, app) && !attachFirst
    ensures e.Failed? ==> e == LoadFailed(InstallModel(app, asset, attachFirst))
    ensures e.completions == 1
  {
    var installed := InstallModel(app, asset, attachFirst);
    var opt := OptimizeModel(installed, installed.current.value);
    if opt.Err? then LoadFailed(installed)
    else
      Lod.RefsBelowGrow(GeoRefs(asset.root), |app.geoms|, |opt.value.geoms|);
      Finish(opt.value, asset)
  }

  /** The success callback in the corrected order: the load always finishes
      and leaves the new model current and in the scene
      with every mesh marked, the previous model out of the scene. */
  function LoadSucceeded(app: App, asset: Asset): (e: LoadEnd)
    requires GeoRefsBelow(asset.root, |app.geoms|) && IdsBelow(app)
    ensures e.Finished?
    ensures e.app.current.Some? && e.app.current.value.id in e.app.scene && AllMarked(e.app.current.value.root)
    ensures e.app.current.value.id >= app.nextId
    ensures app.current.Some? && app.current.value.id < app.nextId ==> app.current.value.id !in e.app.scene
  {
    LoadWith(app, asset, true)
  }

  /** The success callback as written: it ends in the error callback exactly
      when the gate of `optimizeModel` holds. */
  function LoadSucceededAsWritten(app: App, asset: Asset): (e: LoadEnd)
    requires GeoRefsBelow(asset.root, |app.geoms|) && IdsBelow(app)
    ensures e.Failed? <==> WantsLod(asset.root, app)
  {
    LoadWith(app, asset, false)
  }

  /** The error callback: it alerts the user and calls `onComplete`, leaving
      the state as it finds it. */
  function LoadFailed(app: App): (e: LoadEnd)
    ensures e.app == app && e.Failed? && e.alerted && e.completions == 1
  {
    Failed(app, true, 1)
  }

  /** A successful load below the gate installs the loaded tree itself, and
      the two orders of the success callback agree. */
  lemma LoadLowPoly(app: App, asset: Asset)
    requires GeoRefsBelow(asset.root, |app.geoms|) && IdsBelow(app) && !WantsLod(asset.root, app)
    ensures var e := LoadSucceeded(app, asset);
      && e.app.current == Some(Model(app.nextId, MarkMeshes(asset.root)))
      && e.app.geoms == GeometryOpt.OptimizeGeometries(asset.root, app.geoms)
      && LoadSucceededAsWritten(app, asset) == e
  {
    var e := LoadSucceeded(app, asset);
    var w := LoadSucceededAsWritten(app, asset);
    assert e.app.scene == w.app.scene;
  }

  /** A successful load above the gate (with levels of detail enabled)
      installs three levels at distances 0, 50 and 100 under a new id; the
      first level is the loaded tree and the loaded root itself is not in the
      scene. */
  lemma LoadHighPoly(app: App, asset: Asset)
    requires GeoRefsBelow(asset.root, |app.geoms|) && IdsBelow(app) && WantsLod(asset.root, app)
    ensures var e := LoadSucceeded(app, asset);
      && e.app.current.value.id == app.nextId + 1 && app.nextId !in e.app.scene
      && var lod := e.app.current.value.root;
      && lod.Lod? && lod.distances == Lod.LodDistances && |lod.children| == 3
      && lod.children[0] == MarkMeshes(asset.root)
  {
    var installed := InstallModel(app, asset, true);
    var opt := OptimizeModel(installed, installed.current.value);
    var lod := opt.value.current.value.root;
    assert lod.children[0] == asset.root;
    assert LoadSucceeded(app, asset) == Finish(opt.value, asset);
    assert MarkMeshes(lod).children[0] == MarkMeshes(lod.children[0]);
  }

  /** As written, a load above the gate throws inside `createLOD` and the
      failure is reported through the error callback, after the old model was
      removed: the user is alerted, `onComplete` is called once, the new tree is
      current but not in the scene, and neither its geometries nor its
      materials were optimized. */
  lemma AsWrittenHighPolyThrows(app: App, asset: Asset)
    requires GeoRefsBelow(asset.root, |app.geoms|) && IdsBelow(app) && WantsLod(asset.root, app)
    ensures var e := LoadSucceededAsWritten(app, asset);
      && e.Failed? && e.alerted && e.completions == 1
      && e.app.current == Some(Model(app.nextId, asset.root)) && app.nextId !in e.app.scene
      && e.app.geoms == app.geoms && e.app.mats == app.mats
      && (app.current.Some? ==> app.current.value.id !in e.app.scene)
  {
  }

  /** One non-indexed mesh of 300003 positions (100001 triangles), with levels
      of detail enabled, loaded into a fresh viewer: as written the load ends
      in the error callback, in the corrected order it finishes. */
  lemma AsWrittenThrowsOnLargeMesh()
    ensures var app := Initial(true, Clipping.Written).(geoms := [Geometry(300003, None, false, false)]);
            var asset := Asset(Mesh(Some(0), None, MeshFlags(false, false, false), []), []);
      && GeoRefsBelow(asset.root, |app.geoms|) && IdsBelow(app)
      && LoadSucceededAsWritten(app, asset).Failed?
      && LoadSucceeded(app, asset).Finished?
  {
    var app := Initial(true, Clipping.Written).(geoms := [Geometry(300003, None, false, false)]);
    var asset := Asset(Mesh(Some(0), None, MeshFlags(false, false, false), []), []);
    assert MeshVisits(asset.root) == [MeshVisit(Some(0), None)];
    assert GeoRefs(asset.root) == [0];
    assert Visited([0], app.geoms) == app.geoms;
    assert Analysis.Tally(app.geoms[1..]) == Analysis.NoStats;
    assert Analysis.AnalyzeModel(asset.root, app.geoms).totalTriangles == 100001.0;
    AsWrittenHighPolyThrows(app, asset);
  }

  /** The printed information is counted over the loaded tree and agrees with
      `analyzeModel` before any optimization: the same vertices, the floor of
      its triangles, and its meshes plus the meshes without geometry. */
  lemma LoadReportsAnalysis(app: App, asset: Asset)
    requires GeoRefsBelow(asset.root, |app.geoms|) && IdsBelow(app)
    ensures var e := LoadSucceeded(app, asset);
            var s := Analysis.AnalyzeModel(asset.root, app.geoms);
      && e.info.totalVertices == s.totalVertices
      && e.info.shownTriangles == s.totalTriangles.Floor
      && e.info.meshCount == s.meshCount + Bare(MeshVisits(asset.root))
  {
    var installed := InstallModel(app, asset, true);
    var opt := OptimizeModel(installed, installed.current.value).value;
    Lod.RefsBelowGrow(GeoRefs(asset.root), |app.geoms|, |opt.geoms|);
    assert LoadSucceeded(app, asset) == Finish(opt, asset);
    Analysis.InfoAgreesWithAnalysis(asset.root, opt.geoms);
    OptimizedKeepsAnalysis(asset.root, app.geoms, opt.geoms);
  }

  /** An arena whose entries used by `root` were optimized, and whose other
      entries were kept, analyses `root` as before. */
  lemma OptimizedKeepsAnalysis(root: Node, before: seq<Geometry>, after: seq<Geometry>)
    requires GeoRefsBelow(root, |before|) && |after| >= |before|
    requires forall k :: 0 <= k < |before| ==>
      after[k] == if k in GeoRefs(root) then GeometryOpt.OptimizeGeometry(before[k]) else before[k]
    ensures Analysis.AnalyzeModel(root, after) == Analysis.AnalyzeModel(root, before)
  {
    Lod.RefsBelowGrow(GeoRefs(root), |before|, |after|);
    forall i | 0 <= i < |GeoRefs(root)|
      ensures var r := GeoRefs(root)[i];
        after[r].positionCount == before[r].positionCount
        && TriangleSource(after[r]) == TriangleSource(before[r])
    {
    }
    Analysis.AnalyzeFrame(root, after, before);
  }

  /** Every geometry the loaded tree uses is optimized exactly once, whatever
      the sharing; the rest of the arena is untouched. */
  lemma LoadOptimizesGeometries(app: App, asset: Asset, k: nat)
    requires GeoRefsBelow(asset.root, |app.geoms|) && IdsBelow(app) && k < |app.geoms|
    ensures var e := LoadSucceeded(app, asset);
      && |e.app.geoms| >= |app.geoms|
      && e.app.geoms[k] == if k in GeoRefs(asset.root) then GeometryOpt.OptimizeGeometry(app.geoms[k]) else app.geoms[k]
  {
    var installed := InstallModel(app, asset, true);
    var opt := OptimizeModel(installed, installed.current.value).value;
    assert LoadSucceeded(app, asset) == Finish(opt, asset);
  }

  /** Every material the loaded tree uses is optimized exactly once, however
      many meshes or levels share it; the rest of the arena is untouched. */
  lemma LoadOptimizesMaterials(app: App, asset: Asset, k: nat)
    requires GeoRefsBelow(asset.root, |app.geoms|) && IdsBelow(app) && k < |app.mats|
    ensures var e := LoadSucceeded(app, asset);
      e.app.mats[k] == if k in MatRefs(asset.root) then MaterialOpt.OptimizeMaterial(app.mats[k]) else app.mats[k]
  {
    var installed := InstallModel(app, asset, true);
    var opt := OptimizeModel(installed, installed.current.value).value;
    var root := opt.current.value.root;
    assert LoadSucceeded(app, asset) == Finish(opt, asset);
    MaterialOpt.SharedMaterialOptimizedOnce(root, opt.mats, k);
    assert k in MatRefs(root) <==> k in MatRefs(asset.root) by {
      if WantsLod(asset.root, app) {
        assert MatRefs(root) == MatRefs(asset.root) + MatRefs(asset.root) + MatRefs(asset.root);
      }
    }
  }

  /** The mixer and the actions are replaced only by an asset with clips; an
      asset without clips leaves the previous model's mixer in place. */
  lemma LoadMixer(app: App, asset: Asset)
    requires GeoRefsBelow(asset.root, |app.geoms|) && IdsBelow(app)
    ensures var e := LoadSucceeded(app, asset);
      && (|asset.clips| == 0 ==> e.app.mixer == app.mixer && e.app.animations == app.animations)
      && (|asset.clips| > 0 ==> e.app.mixer == Some(e.app.current.value.id) && e.app.animations == asset.clips)
  {
    var installed := InstallModel(app, asset, true);
    var opt := OptimizeModel(installed, installed.current.value).value;
    assert LoadSucceeded(app, asset) == Finish(opt, asset);
  }

  /** A load leaves the section state alone: the renderer keeps clipping with
      the planes computed for the previous model, and the box stays. */
  lemma LoadKeepsSectionState(app: App, asset: Asset)
    requires GeoRefsBelow(asset.root, |app.geoms|) && IdsBelow(app)
    ensures var e := LoadSucceeded(app, asset);
      && e.app.clip == app.clip && e.app.localClipping == app.localClipping
      && e.app.section == app.section && e.app.sectionAxis == app.sectionAxis
      && e.app.box == app.box && ActivePlanes(e.app) == ActivePlanes(app)
  {
    var installed := InstallModel(app, asset, true);
    var opt := OptimizeModel(installed, installed.current.value).value;
    assert LoadSucceeded(app, asset) == Finish(opt, asset);
    assert installed.clip == app.clip && installed.section == app.section && installed.box == app.box;
    assert opt.clip == app.clip && opt.section == app.section && opt.box == app.box;
    var e := Finish(opt, asset);
    assert e.app.clip == app.clip && e.app.section == app.section && e.app.box == app.box;
    assert e.app.localClipping == app.localClipping && e.app.sectionAxis == app.sectionAxis;
    SamePlanes(e.app, app);
  }

  lemma SamePlanes(a: App, b: App)
    requires a.clip == b.clip && a.section == b.section && a.box == b.box
    ensures ActivePlanes(a) == ActivePlanes(b)
  {
  }

  /** Loads keep the invariant, in either order of the success callback. */
  lemma LoadInv(app: App, asset: Asset)
    requires GeoRefsBelow(asset.root, |app.geoms|) && Inv(app)
    ensures Inv(LoadSucceeded(app, asset).app) && Inv(LoadFailed(app).app)
    ensures Inv(LoadSucceededAsWritten(app, asset).app)
  {
    var e := LoadSucceeded(app, asset);
    LoadKeepsSectionState(app, asset);
    LoadKeepsIdsBelow(app, asset);
    InvFrame(app, e.app);
    AsWrittenLoadInv(app, asset);
  }

  /** The invariant depends only on the section state and on ids staying below `nextId`. */
  lemma InvFrame(a: App, b: App)
    requires Inv(a) && IdsBelow(b)
    requires b.clip == a.clip && b.section == a.section && b.sectionAxis == a.sectionAxis
    requires b.box == a.box && b.boxNormals == a.boxNormals
    ensures Inv(b)
  {
  }

  /** A load allocates every object it adds below the new `nextId`. */
  lemma LoadKeepsIdsBelow(app: App, asset: Asset)
    requires GeoRefsBelow(asset.root, |app.geoms|) && IdsBelow(app)
    ensures var e := LoadSucceeded(app, asset);
      IdsBelow(e.app) && e.app.boxNormals == app.boxNormals
  {
    var installed := InstallModel(app, asset, true);
    InstallKeepsIdsBelow(app, asset);
    var opt := OptimizeModel(installed, installed.current.value).value;
    OptimizeKeepsIdsBelow(installed, installed.current.value);
    assert LoadSucceeded(app, asset) == Finish(opt, asset);
    FinishKeepsIdsBelow(opt, asset);
  }

  lemma InstallKeepsIdsBelow(app: App, asset: Asset)
    requires IdsBelow(app)
    ensures IdsBelow(InstallModel(app, asset, true))
  {
  }

  lemma OptimizeKeepsIdsBelow(app: App, model: Model)
    requires GeoRefsBelow(model.root, |app.geoms|) && model.id < app.nextId && IdsBelow(app)
    requires OptimizeModel(app, model).Ok?
    ensures IdsBelow(OptimizeModel(app, model).value) && OptimizeModel(app, model).value.boxNormals == app.boxNormals
  {
    if WantsLod(model.root, app) {
      var c := CreateLod(app, model).value;
      assert IdsBelow(c);
    }
  }

  lemma FinishKeepsIdsBelow(app: App, asset: Asset)
    requires app.current.Some? && GeoRefsBelow(asset.root, |app.geoms|) && IdsBelow(app)
    ensures IdsBelow(Finish(app, asset).app) && Finish(app, asset).app.boxNormals == app.boxNormals
  {
  }

  lemma AsWrittenLoadInv(app: App, asset: Asset)
    requires GeoRefsBelow(asset.root, |app.geoms|) && Inv(app) && Inv(LoadSucceeded(app, asset).app)
    ensures Inv(LoadSucceededAsWritten(app, asset).app)
  {
    if WantsLod(asset.root, app) {
      var installed := InstallModel(app, asset, false);
      assert LoadSucceededAsWritten(app, asset).app == installed;
    } else {
      LoadLowPoly(app, asset);
    }
  }
}

=== FILE: lod.dfy ===
/** `simplifyModel` and `createLOD`'s level construction. The "simplification"
    keeps a prefix of each index buffer; it is not mesh decimation. */
module Lod {
  import opened Wrappers
  import opened Scene
  import Analysis

  const MediumRatio: real := 0.5
  const LowRatio: real := 0.2
  const LodDistances: seq<real> := [0.0, 50.0, 100.0]

  /** The end of `array.slice(0, Math.floor(count * ratio))`: a negative end counts
      from the back, and an end past the array is the array's length. */
  function Cut(count: nat, ratio: real): (k: nat)
    ensures k <= count
    ensures 0.0 <= ratio <= 1.0 ==> k == (count as real * ratio).Floor
  {
    var end := (count as real * ratio).Floor;
    if end < 0 then (if count + end < 0 then 0 else count + end)
    else if end > count then count
    else end
  }

  /** The cloned geometry of one mesh, with its index buffer cut to a prefix. */
  function Truncated(g: Geometry, ratio: real): (r: Geometry)
    ensures r.positionCount == g.positionCount && r.hasNormals == g.hasNormals && r.hasBounds == g.hasBounds
    ensures g.index.None? ==> r == g
    ensures g.index.Some? ==> r.index.Some? && |r.index.value| <= |g.index.value| && r.index.value == g.index.value[..|r.index.value|]
    ensures g.index.Some? && 0.0 <= ratio <= 1.0 ==> |r.index.value| == (|g.index.value| as real * ratio).Floor
  {
    if g.index.Some? then g.(index := Some(g.index.value[..Cut(|g.index.value|, ratio)])) else g
  }

  function TruncateAll(gs: seq<Geometry>, ratio: real): (r: seq<Geometry>)
    ensures |r| == |gs|
    ensures forall i :: 0 <= i < |gs| ==> r[i] == Truncated(gs[i], ratio)
  {
    if |gs| == 0 then [] else [Truncated(gs[0], ratio)] + TruncateAll(gs[1..], ratio)
  }

  /** A simplified tree and the geometry arena with the clones appended. */
  datatype Simplified = Simplified(node: Node, geoms: seq<Geometry>)

  datatype SimplifiedSeq = SimplifiedSeq(nodes: seq<Node>, geoms: seq<Geometry>)

  /** Every reference in `refs` lies in `[lo, hi)`. */
  predicate Within(refs: seq<GeoRef>, lo: nat, hi: nat)
  {
    forall i :: 0 <= i < |refs| ==> lo <= refs[i] < hi
  }

  /** `simplifyModel` on a subtree: each visited mesh with a geometry gets a
      fresh clone, cut to `ratio` of its indices, and the old geometries are
      not changed. */
  function SimplifyModel(n: Node, ratio: real, geoms: seq<Geometry>): (r: Simplified)
    requires GeoRefsBelow(n, |geoms|)
    ensures Extends(r.geoms, geoms)
    ensures Within(GeoRefs(r.node), |geoms|, |r.geoms|)
    ensures RefsBelow(GeoRefs(r.node), |r.geoms|)
    ensures Visited(GeoRefs(r.node), r.geoms) == TruncateAll(Visited(GeoRefs(n), geoms), ratio)
    ensures EraseGeometry(MeshVisits(r.node)) == EraseGeometry(MeshVisits(n))
    decreases n, 1
  {
    GeoRefsNode(n);
    var own := if n.Mesh? && n.geometry.Some? then [n.geometry.value] else [];
    RefsBelowConcat(own, Geos(MeshVisitsSeq(n.children)), |geoms|);
    assert n.Mesh? && n.geometry.Some? ==> own[0] == n.geometry.value < |geoms|;
    var clones := if n.Mesh? && n.geometry.Some? then geoms + [Truncated(geoms[n.geometry.value], ratio)] else geoms;
    var cs := SimplifyChildren(n.children, ratio, clones);
    var r := if n.Mesh? && n.geometry.Some? then n.(geometry := Some(|geoms|), children := cs.nodes) else n.(children := cs.nodes);
    SimplifyModelFacts(n, ratio, geoms, clones, cs, r);
    Simplified(r, cs.geoms)
  }

  function SimplifyChildren(cs: seq<Node>, ratio: real, geoms: seq<Geometry>): (r: SimplifiedSeq)
    requires RefsBelow(Geos(MeshVisitsSeq(cs)), |geoms|)
    ensures |r.nodes| == |cs|
    ensures Extends(r.geoms, geoms)
    ensures Within(Geos(MeshVisitsSeq(r.nodes)), |geoms|, |r.geoms|)
    ensures RefsBelow(Geos(MeshVisitsSeq(r.nodes)), |r.geoms|)
    ensures Visited(Geos(MeshVisitsSeq(r.nodes)), r.geoms) == TruncateAll(Visited(Geos(MeshVisitsSeq(cs)), geoms), ratio)
    ensures EraseGeometry(MeshVisitsSeq(r.nodes)) == EraseGeometry(MeshVisitsSeq(cs))
    decreases cs, 0
  {
    if |cs| == 0 then SimplifiedSeq([], geoms)
    else
      GeoRefsSeqSplit(cs);
      RefsBelowConcat(GeoRefs(cs[0]), Geos(MeshVisitsSeq(cs[1..])), |geoms|);
      var h := SimplifyModel(cs[0], ratio, geoms);
      RefsBelowGrow(Geos(MeshVisitsSeq(cs[1..])), |geoms|, |h.geoms|);
      var t := SimplifyChildren(cs[1..], ratio, h.geoms);
      SimplifyChildrenFacts(cs, ratio, geoms, h, t);
      SimplifiedSeq([h.node] + t.nodes, t.geoms)
  }

  lemma RefsBelowGrow(refs: seq<nat>, lo: nat, hi: nat)
    requires RefsBelow(refs, lo) && lo <= hi
    ensures RefsBelow(refs, hi)
  {
  }

  lemma TruncateAllConcat(a: seq<Geometry>, b: seq<Geometry>, ratio: real)
    ensures TruncateAll(a + b, ratio) == TruncateAll(a, ratio) + TruncateAll(b, ratio)
  {
    var l, r := TruncateAll(a + b, ratio), TruncateAll(a, ratio) + TruncateAll(b, ratio);
    forall i | 0 <= i < |l|
      ensures l[i] == r[i]
    {
      if i < |a| {
        assert (a + b)[i] == a[i];
      } else {
        assert (a + b)[i] == b[i - |a|];
      }
    }
  }

  lemma WithinConcat(a: seq<GeoRef>, b: seq<GeoRef>, lo: nat, hi: nat)
    requires Within(a, lo, hi) && Within(b, lo, hi)
    ensures Within(a + b, lo, hi)
  {
    assert forall i :: 0 <= i < |a| ==> (a + b)[i] == a[i];
    assert forall i :: |a| <= i < |a + b| ==> (a + b)[i] == b[i - |a|];
  }

  lemma SimplifyModelFacts(n: Node, ratio: real, geoms: seq<Geometry>, clones: seq<Geometry>, cs: SimplifiedSeq, r: Node)
    requires GeoRefsBelow(n, |geoms|)
    requires n.Mesh? && n.geometry.Some? ==> n.geometry.value < |geoms|
    requires clones == if n.Mesh? && n.geometry.Some? then geoms + [Truncated(geoms[n.geometry.value], ratio)] else geoms
    requires RefsBelow(Geos(MeshVisitsSeq(n.children)), |geoms|)
    requires |cs.nodes| == |n.children|
    requires Extends(cs.geoms, clones)
    requires Within(Geos(MeshVisitsSeq(cs.nodes)), |clones|, |cs.geoms|)
    requires RefsBelow(Geos(MeshVisitsSeq(cs.nodes)), |cs.geoms|)
    requires Visited(Geos(MeshVisitsSeq(cs.nodes)), cs.geoms) == TruncateAll(Visited(Geos(MeshVisitsSeq(n.children)), clones), ratio)
    requires EraseGeometry(MeshVisitsSeq(cs.nodes)) == EraseGeometry(MeshVisitsSeq(n.children))
    requires r == if n.Mesh? && n.geometry.Some? then n.(geometry := Some(|geoms|), children := cs.nodes) else n.(children := cs.nodes)
    ensures Extends(cs.geoms, geoms)
    ensures Within(GeoRefs(r), |geoms|, |cs.geoms|)
    ensures RefsBelow(GeoRefs(r), |cs.geoms|)
    ensures Visited(GeoRefs(r), cs.geoms) == TruncateAll(Visited(GeoRefs(n), geoms), ratio)
    ensures EraseGeometry(MeshVisits(r)) == EraseGeometry(MeshVisits(n))
  {
    assert Extends(clones, geoms);
    ExtendsTrans(cs.geoms, clones, geoms);
    GeoRefsNode(n);
    GeoRefsNode(r);
    var kidsRefs := Geos(MeshVisitsSeq(n.children));
    var newKids := Geos(MeshVisitsSeq(cs.nodes));
    VisitedExtend(kidsRefs, geoms, clones);
    var ownN := if n.Mesh? then [MeshVisit(n.geometry, n.material)] else [];
    var ownR := if r.Mesh? then [MeshVisit(r.geometry, r.material)] else [];
    EraseConcat(ownN, MeshVisitsSeq(n.children));
    EraseConcat(ownR, MeshVisitsSeq(cs.nodes));
    if n.Mesh? && n.geometry.Some? {
      var g := n.geometry.value;
      assert GeoRefs(r) == [|geoms|] + newKids;
      assert GeoRefs(n) == [g] + kidsRefs;
      assert cs.geoms[|geoms|] == clones[|geoms|];
      WithinConcat([|geoms|], newKids, |geoms|, |cs.geoms|);
      RefsBelowConcat([|geoms|], newKids, |cs.geoms|);
      VisitedConcat([|geoms|], newKids, cs.geoms);
      RefsBelowConcat([g], kidsRefs, |geoms|);
      VisitedConcat([g], kidsRefs, geoms);
      TruncateAllConcat([geoms[g]], Visited(kidsRefs, geoms), ratio);
      assert Visited([|geoms|], cs.geoms) == [cs.geoms[|geoms|]];
      assert Visited([g], geoms) == [geoms[g]];
    } else {
      assert GeoRefs(r) == newKids;
      assert GeoRefs(n) == kidsRefs;
    }
  }

  lemma SimplifyChildrenFacts(cs: seq<Node>, ratio: real, geoms: seq<Geometry>, h: Simplified, t: SimplifiedSeq)
    requires |cs| > 0
    requires RefsBelow(Geos(MeshVisitsSeq(cs)), |geoms|)
    requires GeoRefsBelow(cs[0], |geoms|)
    requires RefsBelow(Geos(MeshVisitsSeq(cs[1..])), |geoms|)
    requires Extends(h.geoms, geoms)
    requires Within(GeoRefs(h.node), |geoms|, |h.geoms|)
    requires RefsBelow(GeoRefs(h.node), |h.geoms|)
    requires Visited(GeoRefs(h.node), h.geoms) == TruncateAll(Visited(GeoRefs(cs[0]), geoms), ratio)
    requires EraseGeometry(MeshVisits(h.node)) == EraseGeometry(MeshVisits(cs[0]))
    requires Extends(t.geoms, h.geoms)
    requires Within(Geos(MeshVisitsSeq(t.nodes)), |h.geoms|, |t.geoms|)
    requires RefsBelow(Geos(MeshVisitsSeq(t.nodes)), |t.geoms|)
    requires Visited(Geos(MeshVisitsSeq(t.nodes)), t.geoms) == TruncateAll(Visited(Geos(MeshVisitsSeq(cs[1..])), h.geoms), ratio)
    requires EraseGeometry(MeshVisitsSeq(t.nodes)) == EraseGeometry(MeshVisitsSeq(cs[1..]))
    ensures Extends(t.geoms, geoms)
    ensures Within(Geos(MeshVisitsSeq([h.node] + t.nodes)), |geoms|, |t.geoms|)
    ensures RefsBelow(Geos(MeshVisitsSeq([h.node] + t.nodes)), |t.geoms|)
    ensures Visited(Geos(MeshVisitsSeq([h.node] + t.nodes)), t.geoms) == TruncateAll(Visited(Geos(MeshVisitsSeq(cs)), geoms), ratio)
    ensures EraseGeometry(MeshVisitsSeq([h.node] + t.nodes)) == EraseGeometry(MeshVisitsSeq(cs))
  {
    ExtendsTrans(t.geoms, h.geoms, geoms);
    var ns := [h.node] + t.nodes;
    assert ns[0] == h.node && ns[1..] == t.nodes;
    GeoRefsSeqSplit(ns);
    GeoRefsSeqSplit(cs);
    var a, b := GeoRefs(h.node), Geos(MeshVisitsSeq(t.nodes));
    WithinConcat(a, b, |geoms|, |t.geoms|);
    RefsBelowConcat(a, b, |t.geoms|);
    VisitedConcat(a, b, t.geoms);
    VisitedExtend(a, h.geoms, t.geoms);
    VisitedExtend(Geos(MeshVisitsSeq(cs[1..])), geoms, h.geoms);
    VisitedConcat(GeoRefs(cs[0]), Geos(MeshVisitsSeq(cs[1..])), geoms);
    TruncateAllConcat(Visited(GeoRefs(cs[0]), geoms), Visited(Geos(MeshVisitsSeq(cs[1..])), geoms), ratio);
    EraseConcat(MeshVisits(h.node), MeshVisitsSeq(t.nodes));
    EraseConcat(MeshVisits(cs[0]), MeshVisitsSeq(cs[1..]));
  }

  /** Cutting index buffers never adds triangles and keeps every mesh and vertex. */
  lemma {:induction false} TruncateAllTally(gs: seq<Geometry>, ratio: real)
    ensures Analysis.Tally(TruncateAll(gs, ratio)).meshCount == Analysis.Tally(gs).meshCount
    ensures Analysis.Tally(TruncateAll(gs, ratio)).totalVertices == Analysis.Tally(gs).totalVertices
    ensures Analysis.Tally(TruncateAll(gs, ratio)).totalTriangles <= Analysis.Tally(gs).totalTriangles
  {
    if |gs| > 0 {
      assert TruncateAll(gs, ratio)[1..] == TruncateAll(gs[1..], ratio);
      TruncateAllTally(gs[1..], ratio);
      assert TriangleSource(Truncated(gs[0], ratio)) <= TriangleSource(gs[0]);
    }
  }

  /** A simplified model has the same meshes, vertices and materials as its
      source and at most its triangles. */
  lemma SimplifyKeepsMeshes(n: Node, ratio: real, geoms: seq<Geometry>)
    requires GeoRefsBelow(n, |geoms|)
    ensures var r := SimplifyModel(n, ratio, geoms);
      && MatRefs(r.node) == MatRefs(n)
      && Bare(MeshVisits(r.node)) == Bare(MeshVisits(n))
      && Analysis.AnalyzeModel(r.node, r.geoms).meshCount == Analysis.AnalyzeModel(n, geoms).meshCount
      && Analysis.AnalyzeModel(r.node, r.geoms).totalVertices == Analysis.AnalyzeModel(n, geoms).totalVertices
      && Analysis.AnalyzeModel(r.node, r.geoms).totalTriangles <= Analysis.AnalyzeModel(n, geoms).totalTriangles
  {
    var r := SimplifyModel(n, ratio, geoms);
    EraseKeeps(MeshVisits(r.node), MeshVisits(n));
    TruncateAllTally(Visited(GeoRefs(n), geoms), ratio);
  }

  /** The three LOD levels `createLOD` builds before it touches the scene: a
      plain clone at distance 0 (it shares every geometry with the source), and
      clones cut to half and a fifth of their indices at 50 and 100. */
  function BuildLod(root: Node, geoms: seq<Geometry>): (r: Simplified)
    requires GeoRefsBelow(root, |geoms|)
    ensures r.node.Lod? && r.node.distances == LodDistances && |r.node.children| == 3
    ensures r.node.children[0] == root
    ensures Extends(r.geoms, geoms)
    ensures GeoRefsBelow(r.node, |r.geoms|)
    ensures Within(GeoRefs(r.node.children[1]), |geoms|, |r.geoms|)
    ensures Within(GeoRefs(r.node.children[2]), |geoms|, |r.geoms|)
    ensures RefsBelow(GeoRefs(r.node.children[1]), |r.geoms|) && RefsBelow(GeoRefs(r.node.children[2]), |r.geoms|)
    ensures Visited(GeoRefs(r.node.children[1]), r.geoms) == TruncateAll(Visited(GeoRefs(root), geoms), MediumRatio)
    ensures Visited(GeoRefs(r.node.children[2]), r.geoms) == TruncateAll(Visited(GeoRefs(root), geoms), LowRatio)
    ensures EraseGeometry(MeshVisits(r.node.children[1])) == EraseGeometry(MeshVisits(root))
    ensures EraseGeometry(MeshVisits(r.node.children[2])) == EraseGeometry(MeshVisits(root))
  {
    var medium := SimplifyModel(root, MediumRatio, geoms);
    RefsBelowGrow(GeoRefs(root), |geoms|, |medium.geoms|);
    var low := SimplifyModel(root, LowRatio, medium.geoms);
    var lod := Lod(LodDistances, [root, medium.node, low.node]);
    BuildLodFacts(root, geoms, medium, low, lod);
    Simplified(lod, low.geoms)
  }

  lemma BuildLodFacts(root: Node, geoms: seq<Geometry>, medium: Simplified, low: Simplified, lod: Node)
    requires GeoRefsBelow(root, |geoms|)
    requires medium == SimplifyModel(root, MediumRatio, geoms)
    requires GeoRefsBelow(root, |medium.geoms|)
    requires low == SimplifyModel(root, LowRatio, medium.geoms)
    requires lod == Lod(LodDistances, [root, medium.node, low.node])
    ensures Extends(low.geoms, geoms)
    ensures GeoRefsBelow(lod, |low.geoms|)
    ensures Within(GeoRefs(medium.node), |geoms|, |low.geoms|)
    ensures Within(GeoRefs(low.node), |geoms|, |low.geoms|)
    ensures Visited(GeoRefs(medium.node), low.geoms) == TruncateAll(Visited(GeoRefs(root), geoms), MediumRatio)
    ensures Visited(GeoRefs(low.node), low.geoms) == TruncateAll(Visited(GeoRefs(root), geoms), LowRatio)
  {
    BuildLodBounds(root, geoms, medium, low);
    BuildLodVisited(root, geoms, medium, low);
  }

  /** Levels built one after the other in a growing arena refer only to the
      entries added for them, and the level set stays inside the final arena. */
  lemma BuildLodBounds(root: Node, geoms: seq<Geometry>, medium: Simplified, low: Simplified)
    requires GeoRefsBelow(root, |geoms|)
    requires Extends(medium.geoms, geoms) && Extends(low.geoms, medium.geoms)
    requires Within(GeoRefs(medium.node), |geoms|, |medium.geoms|)
    requires Within(GeoRefs(low.node), |medium.geoms|, |low.geoms|)
    ensures Extends(low.geoms, geoms)
    ensures GeoRefsBelow(Lod(LodDistances, [root, medium.node, low.node]), |low.geoms|)
    ensures Within(GeoRefs(medium.node), |geoms|, |low.geoms|)
    ensures Within(GeoRefs(low.node), |geoms|, |low.geoms|)
  {
    ExtendsTrans(low.geoms, medium.geoms, geoms);
    RefsBelowGrow(GeoRefs(root), |geoms|, |low.geoms|);
    LevelRefsBelow(LodDistances, root, medium.node, low.node, |low.geoms|);
  }

  /** Each reduced level reads, in the final arena, the truncated originals. */
  lemma BuildLodVisited(root: Node, geoms: seq<Geometry>, medium: Simplified, low: Simplified)
    requires GeoRefsBelow(root, |geoms|)
    requires medium == SimplifyModel(root, MediumRatio, geoms)
    requires GeoRefsBelow(root, |medium.geoms|)
    requires low == SimplifyModel(root, LowRatio, medium.geoms)
    ensures Visited(GeoRefs(medium.node), low.geoms) == TruncateAll(Visited(GeoRefs(root), geoms), MediumRatio)
    ensures Visited(GeoRefs(low.node), low.geoms) == TruncateAll(Visited(GeoRefs(root), geoms), LowRatio)
  {
    VisitedExtend(GeoRefs(medium.node), medium.geoms, low.geoms);
    VisitedExtend(GeoRefs(root), geoms, medium.geoms);
  }

  /** A three-level node refers only to what its levels refer to. */
  lemma LevelRefsBelow(distances: seq<real>, a: Node, b: Node, c: Node, count: nat)
    requires GeoRefsBelow(a, count) && GeoRefsBelow(b, count) && GeoRefsBelow(c, count)
    ensures GeoRefsBelow(Lod(distances, [a, b, c]), count)
    ensures GeoRefs(Lod(distances, [a, b, c])) == GeoRefs(a) + GeoRefs(b) + GeoRefs(c)
  {
    var lod := Lod(distances, [a, b, c]);
    GeoRefsNode(lod);
    assert GeoRefs(lod) == Geos(MeshVisitsSeq([a, b, c]));
    ThreeLevelRefs(a, b, c);
    RefsBelowConcat(GeoRefs(b), GeoRefs(c), count);
    RefsBelowConcat(GeoRefs(a), GeoRefs(b) + GeoRefs(c), count);
    assert GeoRefs(a) + (GeoRefs(b) + GeoRefs(c)) == GeoRefs(a) + GeoRefs(b) + GeoRefs(c);
  }

  /** A three-level node uses the materials of each level in turn. */
  lemma ThreeLevelMats(distances: seq<real>, a: Node, b: Node, c: Node)
    ensures MatRefs(Lod(distances, [a, b, c])) == MatRefs(a) + MatRefs(b) + MatRefs(c)
  {
    var lod := Lod(distances, [a, b, c]);
    assert MeshVisits(lod) == MeshVisitsSeq([a, b, c]);
    ThreeLevelVisits(a, b, c);
    MatsConcat(MeshVisits(a), MeshVisits(b) + MeshVisits(c));
    MatsConcat(MeshVisits(b), MeshVisits(c));
  }

  lemma ThreeLevelRefs(a: Node, b: Node, c: Node)
    ensures Geos(MeshVisitsSeq([a, b, c])) == GeoRefs(a) + (GeoRefs(b) + GeoRefs(c))
  {
    ThreeLevelVisits(a, b, c);
    GeosConcat(MeshVisits(a), MeshVisits(b) + MeshVisits(c));
    GeosConcat(MeshVisits(b), MeshVisits(c));
  }

  /** A three-level set visits the meshes of each level in turn. */
  lemma ThreeLevelVisits(a: Node, b: Node, c: Node)
    ensures MeshVisitsSeq([a, b, c]) == MeshVisits(a) + (MeshVisits(b) + MeshVisits(c))
  {
    assert [a, b, c][1..] == [b, c];
    assert [b, c][1..] == [c];
    assert [c][1..] == [];
    assert MeshVisitsSeq([c]) == MeshVisits(c) + MeshVisitsSeq([]);
    assert MeshVisitsSeq([b, c]) == MeshVisits(b) + MeshVisitsSeq([c]);
    assert MeshVisitsSeq([a, b, c]) == MeshVisits(a) + MeshVisitsSeq([b, c]);
  }
}

=== FILE: material_opt.dfy ===
/** `optimizeMaterial` and `toggleWireframe`. Materials are shared between
    meshes, so both act on the material arena once per visiting mesh. */
module MaterialOpt {
  import opened Wrappers
  import opened Scene
  import Arena

  /** Textures wider or taller than this get trilinear mipmapping. */
  const MaxTextureSize: nat := 2048

  /** The `getHex()` value of black. */
  const Black: nat := 0

  predicate Oversized(t: Texture)
  {
    t.image.Some? && (t.image.value.width > MaxTextureSize || t.image.value.height > MaxTextureSize)
  }

  function MipmapTexture(t: Texture): Texture
  {
    if Oversized(t) then t.(minFilter := LinearMipmapLinear, generateMipmaps := true) else t
  }

  /** The metalness 0 / roughness 1 branch of the source has an empty body, so
      it does not appear here. */
  function OptimizeMaterial(m: Material): (r: Material)
    ensures r.metalness == m.metalness && r.roughness == m.roughness && r.wireframe == m.wireframe
    ensures m.emissive == Some(Black) ==> r.emissive.None? && r.emissiveMap.None?
    ensures m.emissive != Some(Black) ==> r.emissive == m.emissive && r.emissiveMap == m.emissiveMap
    ensures r.colorMap.Some? <==> m.colorMap.Some?
    ensures m.colorMap.Some? && Oversized(m.colorMap.value) ==>
      r.colorMap.value.minFilter == LinearMipmapLinear && r.colorMap.value.generateMipmaps
        && r.colorMap.value.image == m.colorMap.value.image
    ensures m.colorMap.Some? && !Oversized(m.colorMap.value) ==> r.colorMap == m.colorMap
  {
    var withMap := if m.colorMap.Some? then m.(colorMap := Some(MipmapTexture(m.colorMap.value))) else m;
    if withMap.emissive == Some(Black) then withMap.(emissive := None, emissiveMap := None) else withMap
  }

  /** Optimizing a material twice is optimizing it once. */
  lemma {:induction false} OptimizeMaterialIdempotent(m: Material)
    ensures OptimizeMaterial(OptimizeMaterial(m)) == OptimizeMaterial(m)
  {
    var r := OptimizeMaterial(m);
    if m.colorMap.Some? {
      assert MipmapTexture(r.colorMap.value) == r.colorMap.value;
    }
  }

  /** The traversal in the loader: the material of every visited mesh is optimized in place. */
  function OptimizeMaterials(root: Node, mats: seq<Material>): (r: seq<Material>)
    ensures |r| == |mats|
  {
    Arena.ApplyAtEach(MatRefs(root), mats, OptimizeMaterial)
  }

  /** A material shared by several meshes ends up optimized exactly once, and
      materials the tree does not use are untouched. */
  lemma SharedMaterialOptimizedOnce(root: Node, mats: seq<Material>, k: nat)
    requires k < |mats|
    ensures OptimizeMaterials(root, mats)[k] == if k in MatRefs(root) then OptimizeMaterial(mats[k]) else mats[k]
  {
    forall m ensures OptimizeMaterial(OptimizeMaterial(m)) == OptimizeMaterial(m) {
      OptimizeMaterialIdempotent(m);
    }
    Arena.IdempotentAppliedOnce(MatRefs(root), mats, OptimizeMaterial, k);
  }

  function FlipWireframe(m: Material): Material
  {
    m.(wireframe := !m.wireframe)
  }

  /** `toggleWireframe` on a model: each visited mesh flips its material's flag. */
  function ToggleWireframes(root: Node, mats: seq<Material>): (r: seq<Material>)
    ensures |r| == |mats|
  {
    Arena.ApplyAtEach(MatRefs(root), mats, FlipWireframe)
  }

  /** A material used by k visited meshes is flipped k times, so it ends up
      flipped exactly when k is odd; nothing else about it changes. */
  lemma ToggleParity(root: Node, mats: seq<Material>, k: nat)
    requires k < |mats|
    ensures ToggleWireframes(root, mats)[k].wireframe == (mats[k].wireframe != (Arena.Count(MatRefs(root), k) % 2 == 1))
    ensures ToggleWireframes(root, mats)[k] == mats[k].(wireframe := ToggleWireframes(root, mats)[k].wireframe)
  {
    Arena.InvolutionParity(MatRefs(root), mats, FlipWireframe, k);
  }

  /** Two meshes sharing one material: toggling leaves the material as it was. */
  lemma SharedPairToggleIsNoOp(m: Material)
    ensures var f := MeshFlags(false, false, true);
            ToggleWireframes(Group([Mesh(None, Some(0), f, []), Mesh(None, Some(0), f, [])]), [m]) == [m]
  {
    var f := MeshFlags(false, false, true);
    var a, b := Mesh(None, Some(0), f, []), Mesh(None, Some(0), f, []);
    assert [a, b][1..] == [b];
    assert [b][1..] == [];
    assert MeshVisitsSeq([a, b]) == MeshVisits(a) + MeshVisitsSeq([b]);
    assert MeshVisitsSeq([b]) == MeshVisits(b) + MeshVisitsSeq([]);
    var vs := [MeshVisit(None, Some(0)), MeshVisit(None, Some(0))];
    assert MeshVisits(Group([a, b])) == vs;
    assert vs[1..][1..] == [];
    assert Mats(vs) == [0, 0];
    assert [0, 0][1..] == [0];
    assert Arena.Count([0, 0], 0) == 2;
    ToggleParity(Group([a, b]), [m], 0);
  }
}

=== FILE: scene.dfy ===
/** The scene graph of a loaded model: vectors and boxes over reals, geometry
    and material records (shared by reference, so they live in arenas indexed
    by `GeoRef`/`MatRef`), and the node tree that `Object3D.traverse` walks. */
module Scene {
  import opened Wrappers

  type GeoRef = nat
  type MatRef = nat

  datatype Axis = X | Y | Z

  datatype Vec3 = Vec3(x: real, y: real, z: real)

  function Get(v: Vec3, a: Axis): real
  {
    match a
    case X => v.x
    case Y => v.y
    case Z => v.z
  }

  /** `v` with its coordinate along `a` replaced by `t`. */
  function With(v: Vec3, a: Axis, t: real): (r: Vec3)
    ensures Get(r, a) == t
    ensures forall b: Axis :: b != a ==> Get(r, b) == Get(v, b)
  {
    match a
    case X => v.(x := t)
    case Y => v.(y := t)
    case Z => v.(z := t)
  }

  /** The vector of length |s| along axis `a`, pointing in the direction of the sign of `s`. */
  function Unit(a: Axis, s: real): Vec3
  {
    match a
    case X => Vec3(s, 0.0, 0.0)
    case Y => Vec3(0.0, s, 0.0)
    case Z => Vec3(0.0, 0.0, s)
  }

  function Dot(u: Vec3, v: Vec3): real
  {
    u.x * v.x + u.y * v.y + u.z * v.z
  }

  lemma DotUnit(a: Axis, s: real, p: Vec3)
    ensures Dot(Unit(a, s), p) == s * Get(p, a)
  {
  }

  /** An axis-aligned box (`THREE.Box3`). Nothing forces `min <= max`: the box
      of an empty object is inverted. */
  datatype Box = Box(min: Vec3, max: Vec3)

  predicate InBox(b: Box, p: Vec3)
  {
    && b.min.x <= p.x <= b.max.x
    && b.min.y <= p.y <= b.max.y
    && b.min.z <= p.z <= b.max.z
  }

  /** A `BufferGeometry`: the number of positions, an optional index buffer,
      and whether normals and bounding volumes have been computed. */
  datatype Geometry = Geometry(positionCount: nat, index: Option<seq<nat>>, hasNormals: bool, hasBounds: bool)

  /** The count triangles are derived from: the index count when indexed, else the position count. */
  function TriangleSource(g: Geometry): nat
  {
    if g.index.Some? then |g.index.value| else g.positionCount
  }

  datatype Image = Image(width: nat, height: nat)

  /** Texture minification filters; only the trilinear one matters here. */
  datatype MinFilter = LinearMipmapLinear | OtherFilter(code: nat)

  datatype Texture = Texture(image: Option<Image>, minFilter: MinFilter, generateMipmaps: bool)

  /** A material; `colorMap` is its `map` texture. `emissive` holds the colour's `getHex()` value when a colour is set. */
  datatype Material = Material(
    colorMap: Option<Texture>,
    emissive: Option<nat>,
    emissiveMap: Option<Texture>,
    metalness: real,
    roughness: real,
    wireframe: bool)

  datatype MeshFlags = MeshFlags(castShadow: bool, receiveShadow: bool, frustumCulled: bool)

  /** A scene-graph node. The levels of a `THREE.LOD` are its children, and
      `distances[i]` is the activation distance of `children[i]`. */
  datatype Node =
    | Group(children: seq<Node>)
    | Mesh(geometry: Option<GeoRef>, material: Option<MatRef>, flags: MeshFlags, children: seq<Node>)
    | Lod(distances: seq<real>, children: seq<Node>)

  /** What a traversal sees of one mesh node. */
  datatype MeshVisit = MeshVisit(geometry: Option<GeoRef>, material: Option<MatRef>)

  /** The meshes `traverse` visits, in its order: the node itself, then each child's subtree. */
  function MeshVisits(n: Node): seq<MeshVisit>
  {
    (if n.Mesh? then [MeshVisit(n.geometry, n.material)] else []) + MeshVisitsSeq(n.children)
  }

  function MeshVisitsSeq(cs: seq<Node>): seq<MeshVisit>
  {
    if |cs| == 0 then [] else MeshVisits(cs[0]) + MeshVisitsSeq(cs[1..])
  }

  lemma MeshVisitsSeqConcat(a: seq<Node>, b: seq<Node>)
    ensures MeshVisitsSeq(a + b) == MeshVisitsSeq(a) + MeshVisitsSeq(b)
  {
    if |a| > 0 {
      assert (a + b)[1..] == a[1..] + b;
      MeshVisitsSeqConcat(a[1..], b);
    } else {
      assert a + b == b;
    }
  }

  /** The geometry references of the visited meshes that have a geometry. */
  function Geos(vs: seq<MeshVisit>): seq<GeoRef>
  {
    if |vs| == 0 then []
    else (if vs[0].geometry.Some? then [vs[0].geometry.value] else []) + Geos(vs[1..])
  }

  /** The material references of the visited meshes that have a material. */
  function Mats(vs: seq<MeshVisit>): seq<MatRef>
  {
    if |vs| == 0 then []
    else (if vs[0].material.Some? then [vs[0].material.value] else []) + Mats(vs[1..])
  }

  /** The number of visited meshes that have no geometry. */
  function Bare(vs: seq<MeshVisit>): nat
  {
    if |vs| == 0 then 0 else (if vs[0].geometry.None? then 1 else 0) + Bare(vs[1..])
  }

  lemma {:induction false} GeosConcat(a: seq<MeshVisit>, b: seq<MeshVisit>)
    ensures Geos(a + b) == Geos(a) + Geos(b)
  {
    if |a| > 0 {
      assert (a + b)[1..] == a[1..] + b;
      GeosConcat(a[1..], b);
    } else {
      assert a + b == b;
    }
  }

  lemma {:induction false} MatsConcat(a: seq<MeshVisit>, b: seq<MeshVisit>)
    ensures Mats(a + b) == Mats(a) + Mats(b)
  {
    if |a| > 0 {
      assert (a + b)[1..] == a[1..] + b;
      MatsConcat(a[1..], b);
    } else {
      assert a + b == b;
    }
  }

  function GeoRefs(n: Node): seq<GeoRef>
  {
    Geos(MeshVisits(n))
  }

  function MatRefs(n: Node): seq<MatRef>
  {
    Mats(MeshVisits(n))
  }

  /** Every reference in `refs` names an entry of an arena of `count` entries. */
  predicate RefsBelow(refs: seq<nat>, count: nat)
  {
    forall i :: 0 <= i < |refs| ==> refs[i] < count
  }

  /** Every geometry the tree refers to exists in an arena of `count` geometries. */
  predicate GeoRefsBelow(n: Node, count: nat)
  {
    RefsBelow(GeoRefs(n), count)
  }

  /** Every material the tree refers to exists in an arena of `count` materials. */
  predicate MatRefsBelow(n: Node, count: nat)
  {
    RefsBelow(MatRefs(n), count)
  }

  /** The geometries behind a sequence of references. */
  function Visited(refs: seq<GeoRef>, geoms: seq<Geometry>): (gs: seq<Geometry>)
    requires RefsBelow(refs, |geoms|)
    ensures |gs| == |refs|
    ensures forall i :: 0 <= i < |refs| ==> gs[i] == geoms[refs[i]]
  {
    if |refs| == 0 then [] else [geoms[refs[0]]] + Visited(refs[1..], geoms)
  }

  /** Growing the arena does not change what existing references denote. */
  lemma VisitedExtend(refs: seq<GeoRef>, geoms: seq<Geometry>, more: seq<Geometry>)
    requires RefsBelow(refs, |geoms|)
    requires |geoms| <= |more| && more[..|geoms|] == geoms
    ensures Visited(refs, more) == Visited(refs, geoms)
  {
    var a, b := Visited(refs, more), Visited(refs, geoms);
    assert forall i :: 0 <= i < |refs| ==> a[i] == b[i] by {
      forall i | 0 <= i < |refs|
        ensures a[i] == b[i]
      {
        assert more[..|geoms|][refs[i]] == more[refs[i]];
      }
    }
  }

  lemma VisitedConcat(a: seq<GeoRef>, b: seq<GeoRef>, geoms: seq<Geometry>)
    requires RefsBelow(a + b, |geoms|)
    ensures RefsBelow(a, |geoms|) && RefsBelow(b, |geoms|)
    ensures Visited(a + b, geoms) == Visited(a, geoms) + Visited(b, geoms)
  {
    assert forall i :: 0 <= i < |a| ==> a[i] == (a + b)[i];
    assert forall i :: 0 <= i < |b| ==> b[i] == (a + b)[|a| + i];
  }

  lemma RefsBelowConcat(a: seq<nat>, b: seq<nat>, count: nat)
    ensures RefsBelow(a + b, count) <==> RefsBelow(a, count) && RefsBelow(b, count)
  {
    assert forall i :: 0 <= i < |a| ==> a[i] == (a + b)[i];
    assert forall i :: 0 <= i < |b| ==> b[i] == (a + b)[|a| + i];
  }

  /** A node's geometry references: its own, then those of its children's subtrees. */
  lemma GeoRefsNode(n: Node)
    ensures GeoRefs(n) == (if n.Mesh? && n.geometry.Some? then [n.geometry.value] else []) + Geos(MeshVisitsSeq(n.children))
  {
    var own := if n.Mesh? then [MeshVisit(n.geometry, n.material)] else [];
    GeosConcat(own, MeshVisitsSeq(n.children));
    if n.Mesh? {
      assert own[1..] == [];
    }
  }

  lemma GeoRefsSeqSplit(cs: seq<Node>)
    requires |cs| > 0
    ensures Geos(MeshVisitsSeq(cs)) == GeoRefs(cs[0]) + Geos(MeshVisitsSeq(cs[1..]))
  {
    GeosConcat(MeshVisits(cs[0]), MeshVisitsSeq(cs[1..]));
  }

  /** The visits with every geometry reference replaced by the same dummy:
      which meshes are visited, in which order, with which material, and
      whether each has a geometry. */
  function EraseGeometry(vs: seq<MeshVisit>): (r: seq<MeshVisit>)
    ensures |r| == |vs|
  {
    if |vs| == 0 then []
    else [MeshVisit(if vs[0].geometry.Some? then Some(0) else None, vs[0].material)] + EraseGeometry(vs[1..])
  }

  lemma {:induction false} EraseConcat(a: seq<MeshVisit>, b: seq<MeshVisit>)
    ensures EraseGeometry(a + b) == EraseGeometry(a) + EraseGeometry(b)
  {
    if |a| > 0 {
      assert (a + b)[1..] == a[1..] + b;
      EraseConcat(a[1..], b);
    } else {
      assert a + b == b;
    }
  }

  /** Visits with the same erased shape agree on everything but geometry identity. */
  lemma {:induction false} EraseKeeps(a: seq<MeshVisit>, b: seq<MeshVisit>)
    requires EraseGeometry(a) == EraseGeometry(b)
    ensures Mats(a) == Mats(b) && Bare(a) == Bare(b) && |Geos(a)| == |Geos(b)|
  {
    if |a| > 0 {
      assert EraseGeometry(a)[0] == EraseGeometry(b)[0];
      assert EraseGeometry(a)[1..] == EraseGeometry(a[1..]);
      assert EraseGeometry(b)[1..] == EraseGeometry(b[1..]);
      EraseKeeps(a[1..], b[1..]);
    }
  }

  /** `more` is `base` with geometries appended. */
  predicate Extends(more: seq<Geometry>, base: seq<Geometry>)
  {
    |base| <= |more| && more[..|base|] == base
  }

  lemma ExtendsTrans(c: seq<Geometry>, b: seq<Geometry>, a: seq<Geometry>)
    requires Extends(c, b) && Extends(b, a)
    ensures Extends(c, a)
  {
    assert c[..|a|] == c[..|b|][..|a|];
  }
}

=== FILE: section_box.dfy ===
/** The six-face clip box: `enableSectionBox`, `disableSectionBox` and the
    `objectChange` handler of each face's transform control. The model's
    bounds (`Box3.setFromObject`) are a parameter. The face normals are those
    of `app.boxNormals`: `Written` gives the program's outward planes
    (`Clipping.FacePlanesAsWritten`), `Inward` the corrected ones
    (`Clipping.FacePlanes`); every property below is stated for both. */
module SectionBox {
  import opened Wrappers
  import opened Scene
  import opened Clipping
  import opened Viewer

  /** The handle of face `i`, at the face's centre. */
  function FaceHandle(id: ObjId, b: Box, i: nat): (h: Handle)
    requires i < 6
    ensures h.planeIdx == i && h.face == Faces[i]
    ensures Get(h.pos, FaceAxis(Faces[i])) == Get(if IsMaxFace(Faces[i]) then b.max else b.min, FaceAxis(Faces[i]))
  {
    Handle(id, FaceCenter(b, Faces[i]), FaceSize(b, Faces[i]), i, Faces[i])
  }

  /** The control of face `f`, attached to `target`: it shows the axes on
      which the face's written normal has length one. */
  function FaceControl(id: ObjId, target: ObjId, f: Face): (c: Control)
    ensures c.target == target
    ensures c.showX == (FaceAxis(f) == X) && c.showY == (FaceAxis(f) == Y) && c.showZ == (FaceAxis(f) == Z)
  {
    var n := FaceNormalAsWritten(f);
    Control(id, target, Abs(n.x) == 1.0, Abs(n.y) == 1.0, Abs(n.z) == 1.0)
  }

  /** The removal at the start of `enableSectionBox`, taken only when a helper
      exists: the helper and the handles leave the scene and the controls are
      disposed, but the controls stay in the scene. */
  function TearDown(app: App): (r: App)
    requires app.box.helper.Some?
    ensures r.scene == app.scene - {app.box.helper.value.id} - HandleIds(app.box.meshes)
    ensures ControlIds(app.box.controls) <= r.disposed
    ensures r.box.planes == [] && r.box.controls == [] && r.box.meshes == []
  {
    app.(scene := app.scene - {app.box.helper.value.id} - HandleIds(app.box.meshes),
         disposed := app.disposed + ControlIds(app.box.controls),
         box := app.box.(planes := [], controls := [], meshes := []))
  }

  /** The six handles of a box whose ids start after `n`: handle `i` is `n + 1 + 2i`. */
  function FaceHandles(n: nat, b: Box): (hs: seq<Handle>)
    ensures |hs| == 6
    ensures forall i :: 0 <= i < 6 ==> hs[i] == FaceHandle(n + 1 + 2 * i, b, i)
  {
    seq(6, i requires 0 <= i < 6 => FaceHandle(n + 1 + 2 * i, b, i))
  }

  /** The six controls: control `i` is `n + 2 + 2i` and drives handle `i`. */
  function FaceControls(n: nat): (cs: seq<Control>)
    ensures |cs| == 6
    ensures forall i :: 0 <= i < 6 ==> cs[i] == FaceControl(n + 2 + 2 * i, n + 1 + 2 * i, Faces[i])
  {
    seq(6, i requires 0 <= i < 6 => FaceControl(n + 2 + 2 * i, n + 1 + 2 * i, Faces[i]))
  }

  /** A new box takes the thirteen ids from `n` on: the helper, then each
      handle followed by its control. */
  lemma NewIdsSpan(n: nat, b: Box)
    ensures forall id: ObjId :: id in {n} + HandleIds(FaceHandles(n, b)) + ControlIds(FaceControls(n)) <==> n <= id < n + 13
  {
    var hs := FaceHandles(n, b);
    var cs := FaceControls(n);
    forall id: ObjId
      ensures id in {n} + HandleIds(hs) + ControlIds(cs) <==> n <= id < n + 13
    {
      if n < id < n + 13 {
        var k := id - n - 1;
        var j := k / 2;
        assert 0 <= j < 6 && (k == 2 * j || k == 2 * j + 1);
        if k == 2 * j {
          assert hs[j].id == id;
        } else {
          assert cs[j].id == id;
        }
      }
      if id in HandleIds(hs) {
        var i :| 0 <= i < |hs| && hs[i].id == id;
      }
      if id in ControlIds(cs) {
        var i :| 0 <= i < |cs| && cs[i].id == id;
      }
    }
  }

  /** The scene after a new box is added: the thirteen ids from `n` on join it. */
  function WithBoxIds(scene: set<ObjId>, n: nat, b: Box): (s: set<ObjId>)
    ensures forall id: ObjId :: id in s <==> id in scene || n <= id < n + 13
  {
    NewIdsSpan(n, b);
    scene + ({n} + HandleIds(FaceHandles(n, b)) + ControlIds(FaceControls(n)))
  }

  /** A box built from empty lists is complete. */
  lemma FreshBoxShape(n: nat, b: Box, nm: Normals)
    ensures BoxShape(SectionBox(Some(Helper(n, b)), FacePlanesOf(nm, b), FaceControls(n), FaceHandles(n, b)), nm)
  {
  }

  /** The building half of `enableSectionBox`, after any teardown: a helper for
      `bounds`, the six face planes (with the run's normals) as the renderer's
      clipping planes with local clipping on, and six handles with their
      controls appended to the lists and added to the scene. Every new object
      gets an id from `nextId` on, and nothing else enters the scene. */
  function BuildBox(app: App, bounds: Box): (r: App)
    ensures r.box.helper == Some(Helper(app.nextId, bounds))
    ensures r.box.planes == FacePlanesOf(app.boxNormals, bounds) && ActivePlanes(r) == r.box.planes && r.localClipping
    ensures r.nextId == app.nextId + 13
    ensures r.box.meshes == app.box.meshes + FaceHandles(app.nextId, bounds)
    ensures r.box.controls == app.box.controls + FaceControls(app.nextId)
    ensures forall id: ObjId :: id in r.scene <==> id in app.scene || app.nextId <= id < r.nextId
    ensures app.box.meshes == [] && app.box.controls == [] ==> BoxShape(r.box, app.boxNormals)
    ensures r == app.(scene := r.scene, nextId := r.nextId, clip := BoxClip, localClipping := true, box := r.box)
  {
    var n := app.nextId;
    var meshes := app.box.meshes + FaceHandles(n, bounds);
    var controls := app.box.controls + FaceControls(n);
    var box := SectionBox(Some(Helper(n, bounds)), FacePlanesOf(app.boxNormals, bounds), controls, meshes);
    FreshBoxShape(n, bounds, app.boxNormals);
    assert app.box.meshes == [] && app.box.controls == [] ==> meshes == FaceHandles(n, bounds) && controls == FaceControls(n);
    app.(scene := WithBoxIds(app.scene, n, bounds), nextId := n + 13, clip := BoxClip, localClipping := true, box := box)
  }

  /** `enableSectionBox`: without a model nothing happens; otherwise the old box
      (if its helper exists) is torn down and a new one installed. */
  function EnableSectionBox(app: App, bounds: Box): (r: App)
    ensures app.current.None? ==> r == app
    ensures app.current.Some? ==>
      && r.box.helper == Some(Helper(app.nextId, bounds))
      && ActivePlanes(r) == FacePlanesOf(app.boxNormals, bounds)
      && r.localClipping
      && r.nextId == app.nextId + 13
      && r == app.(scene := r.scene, nextId := r.nextId, clip := BoxClip, localClipping := true,
                   box := r.box, disposed := r.disposed)
    ensures app.current.Some? && BoxShape(app.box, app.boxNormals) ==> BoxShape(r.box, r.boxNormals)
  {
    if app.current.None? then app
    else if app.box.helper.Some? then BuildBox(TearDown(app), bounds)
    else BuildBox(app, bounds)
  }

  /** `disableSectionBox`: the helper and handles leave the scene, the controls
      are disposed, every list is empty, the renderer clips nothing and local
      clipping is off. */
  function DisableSectionBox(app: App): (r: App)
    ensures r.box == NoBox && ActivePlanes(r) == [] && !r.localClipping
    ensures app.box.helper.Some? ==> app.box.helper.value.id !in r.scene
    ensures forall i :: 0 <= i < |app.box.meshes| ==> app.box.meshes[i].id !in r.scene
    ensures forall i :: 0 <= i < |app.box.controls| ==> app.box.controls[i].id in r.disposed
    ensures r.scene <= app.scene && app.disposed <= r.disposed
    ensures forall id :: (id in app.scene && id !in HandleIds(app.box.meshes)
                          && (app.box.helper.Some? ==> id != app.box.helper.value.id)) ==> id in r.scene
    ensures r == app.(scene := r.scene, clip := NoClip, localClipping := false, box := NoBox, disposed := r.disposed)
  {
    var helperIds := if app.box.helper.Some? then {app.box.helper.value.id} else {};
    app.(scene := app.scene - helperIds - HandleIds(app.box.meshes),
         clip := NoClip, localClipping := false, box := NoBox,
         disposed := app.disposed + ControlIds(app.box.controls))
  }

  /** The `objectChange` handler of handle `i` after its control moved the
      handle to coordinate `t` on the one axis it shows: the handle's plane is
      moved through the handle's new position. */
  function ObjectChange(app: App, i: nat, t: real): (r: App)
    requires i < |app.box.meshes| && app.box.meshes[i].planeIdx < |app.box.planes|
    ensures |r.box.meshes| == |app.box.meshes| && |r.box.planes| == |app.box.planes|
    ensures var h := app.box.meshes[i];
      && r.box.meshes[i] == h.(pos := With(h.pos, FaceAxis(h.face), t))
      && r.box.planes[h.planeIdx].normal == app.box.planes[h.planeIdx].normal
      && Dot(FaceNormalOf(app.boxNormals, h.face), r.box.meshes[i].pos) + r.box.planes[h.planeIdx].constant == 0.0
      && (forall j :: 0 <= j < |app.box.planes| && j != h.planeIdx ==> r.box.planes[j] == app.box.planes[j])
      && (forall j :: 0 <= j < |app.box.meshes| && j != i ==> r.box.meshes[j] == app.box.meshes[j])
    ensures r == app.(box := app.box.(planes := r.box.planes, meshes := r.box.meshes))
  {
    var h := app.box.meshes[i];
    var moved := h.(pos := With(h.pos, FaceAxis(h.face), t));
    var k := h.planeIdx;
    var pl := app.box.planes[k].(constant := DragConstant(FaceNormalOf(app.boxNormals, h.face), moved.pos));
    app.(box := app.box.(planes := app.box.planes[k := pl], meshes := app.box.meshes[i := moved]))
  }

  /** On a complete box, dragging face `i` to `t` moves its plane to `t`; the
      renderer sees the change because it clips with the same plane list. With
      the program's outward normals the plane then keeps the points beyond
      `t`, away from the box; with inward normals, those on the box's side. */
  lemma ObjectChangeMovesFace(app: App, i: nat, t: real, p: Vec3)
    requires BoxShape(app.box, app.boxNormals) && app.box.helper.Some? && i < 6
    ensures var r := ObjectChange(app, i, t);
            var a := FaceAxis(Faces[i]);
      && BoxShape(r.box, r.boxNormals)
      && (app.boxNormals == Written ==>
            (Keeps(r.box.planes[i], p) <==> if IsMaxFace(Faces[i]) then t <= Get(p, a) else Get(p, a) <= t))
      && (app.boxNormals == Inward ==>
            (Keeps(r.box.planes[i], p) <==> if IsMaxFace(Faces[i]) then Get(p, a) <= t else t <= Get(p, a)))
      && (app.clip.BoxClip? ==> ActivePlanes(r) == r.box.planes)
  {
    var r := ObjectChange(app, i, t);
    var f := Faces[i];
    var n := FaceNormalOf(app.boxNormals, f);
    assert r.box.planes[i] == Plane(n, DragConstant(n, r.box.meshes[i].pos));
    DragKeepsSide(app.boxNormals, f, r.box.meshes[i].pos, p);
  }

  /** The controls are in the scene and share no id with the helper or the handles. */
  predicate ControlsApart(app: App)
  {
    forall i :: 0 <= i < |app.box.controls| ==>
      && app.box.controls[i].id in app.scene
      && app.box.controls[i].id !in HandleIds(app.box.meshes)
      && (app.box.helper.Some? ==> app.box.controls[i].id != app.box.helper.value.id)
  }

  /** Enabling over an existing box whose objects were allocated before
      `nextId`: its helper and handles leave the scene, its controls stay in
      the scene and are disposed. */
  lemma ReenableLeaksControls(app: App, bounds: Box)
    requires app.current.Some? && app.box.helper.Some? && IdsBelow(app)
    requires ControlsApart(app)
    ensures var r := EnableSectionBox(app, bounds);
      && app.box.helper.value.id !in r.scene
      && (forall i :: 0 <= i < |app.box.meshes| ==> app.box.meshes[i].id !in r.scene)
      && (forall i :: 0 <= i < |app.box.controls| ==> app.box.controls[i].id in r.scene && app.box.controls[i].id in r.disposed)
  {
    var r := EnableSectionBox(app, bounds);
    forall i | 0 <= i < |app.box.meshes| ensures app.box.meshes[i].id !in r.scene {
      assert app.box.meshes[i].id in HandleIds(app.box.meshes);
    }
    forall i | 0 <= i < |app.box.controls|
      ensures app.box.controls[i].id in r.scene && app.box.controls[i].id in r.disposed
    {
      assert app.box.controls[i].id in ControlIds(app.box.controls);
    }
  }

  /** Enabling twice leaves one complete box; the first box's helper and
      handles are gone from the scene, while its six controls, though
      disposed, are still in it. */
  lemma EnableTwiceLeaksControls(app: App, b1: Box, b2: Box)
    requires app.current.Some? && BoxShape(app.box, app.boxNormals) && IdsBelow(app)
    ensures var s1 := EnableSectionBox(app, b1);
            var s2 := EnableSectionBox(s1, b2);
      && BoxShape(s2.box, app.boxNormals) && |s2.box.planes| == 6 && |s2.box.meshes| == 6 && |s2.box.controls| == 6
      && s2.box.planes == FacePlanesOf(app.boxNormals, b2)
      && s1.box.helper.value.id !in s2.scene
      && (forall i :: 0 <= i < 6 ==> s1.box.meshes[i].id !in s2.scene)
      && (forall i :: 0 <= i < 6 ==> s1.box.controls[i].id in s2.scene && s1.box.controls[i].id in s2.disposed)
  {
    var s1 := EnableSectionBox(app, b1);
    EnableKeepsIds(app, b1);
    ReenableLeaksControls(s1, b2);
  }

  /** On a complete box (or none), enabling leaves exactly the fresh handles and controls in the lists. */
  lemma EnableFreshLists(app: App, bounds: Box)
    requires app.current.Some? && BoxShape(app.box, app.boxNormals)
    ensures var r := EnableSectionBox(app, bounds);
      r.box.meshes == FaceHandles(app.nextId, bounds) && r.box.controls == FaceControls(app.nextId)
  {
  }

  /** A new box keeps every id below `nextId` and keeps its controls apart. */
  lemma EnableKeepsIds(app: App, bounds: Box)
    requires app.current.Some? && BoxShape(app.box, app.boxNormals) && IdsBelow(app)
    ensures var r := EnableSectionBox(app, bounds);
      && IdsBelow(r) && BoxShape(r.box, r.boxNormals) && ControlsApart(r)
  {
    var r := EnableSectionBox(app, bounds);
    var n := app.nextId;
    EnableFreshLists(app, bounds);
    assert forall id: ObjId :: id in r.scene ==> id < r.nextId;
    assert forall i :: 0 <= i < |r.box.meshes| ==> r.box.meshes[i].id < r.nextId;
    FreshControlsApart(r, n, bounds);
  }

  lemma FreshControlsApart(r: App, n: nat, bounds: Box)
    requires r.box.meshes == FaceHandles(n, bounds) && r.box.controls == FaceControls(n)
    requires r.box.helper == Some(Helper(n, bounds))
    requires forall id: ObjId :: n <= id < n + 13 ==> id in r.scene
    ensures ControlsApart(r)
  {
    forall i | 0 <= i < 6
      ensures r.box.controls[i].id in r.scene
    {
    }
  }

  /** Disabling removes the helper and the handles from the scene but leaves
      every control in it: the controls are only disposed. */
  lemma DisableLeaksControls(app: App)
    requires ControlsApart(app)
    ensures var r := DisableSectionBox(app);
      forall i :: 0 <= i < |app.box.controls| ==> app.box.controls[i].id in r.scene && app.box.controls[i].id in r.disposed
  {
    var r := DisableSectionBox(app);
    forall i | 0 <= i < |app.box.controls|
      ensures app.box.controls[i].id in r.scene && app.box.controls[i].id in r.disposed
    {
      assert app.box.controls[i].id in ControlIds(app.box.controls);
    }
  }

  /** `disableSectionBox` twice is `disableSectionBox` once. */
  lemma DisableIdempotent(app: App)
    ensures DisableSectionBox(DisableSectionBox(app)) == DisableSectionBox(app)
  {
  }
}

=== FILE: section_plane.dfy ===
/** Single-plane section mode: `enableSectionPlane`, `resetSectionPlanes`,
    `showSectionBox`/`hideSectionBox` (the on-screen handle) and
    `updateSectionPlaneByBox`. The model's bounds (`Box3.setFromObject`) and
    the handle's relative position are parameters. */
module SectionPlane {
  import opened Wrappers
  import opened Scene
  import opened Clipping
  import opened Viewer

  /** `resetSectionPlanes`: all three section planes become null and the
      renderer clips nothing; local clipping is left as it was. */
  function ResetSectionPlanes(app: App): (r: App)
    ensures ActivePlanes(r) == [] && r.section == map[]
    ensures r == app.(section := map[], clip := NoClip)
  {
    app.(section := map[], clip := NoClip)
  }

  /** The fresh plane of `enableSectionPlane`: normal along the negative axis, constant 0. */
  function InitialSectionPlane(a: Axis): Plane
  {
    Plane(SectionNormal(a), 0.0)
  }

  /** `enableSectionPlane(axis)`: reset, then exactly one plane, installed as
      the renderer's only clipping plane. It keeps the points whose coordinate
      on `a` is at most 0. */
  function EnableSectionPlane(app: App, a: Axis): (r: App)
    ensures r.section.Keys == {a} && ActivePlanes(r) == [r.section[a]]
    ensures r.section[a].normal == Unit(a, -1.0) && r.section[a].constant == 0.0
    ensures forall p :: Keeps(r.section[a], p) <==> Get(p, a) <= 0.0
    ensures r == app.(section := r.section, clip := SingleClip(a))
  {
    var r := ResetSectionPlanes(app).(section := map[a := InitialSectionPlane(a)], clip := SingleClip(a));
    forall p ensures Keeps(r.section[a], p) <==> Get(p, a) <= 0.0 {
      DotUnit(a, -1.0, p);
    }
    r
  }

  /** `showSectionBox(axis)`: the handle is displayed and drives `axis`. */
  function ShowSectionBox(app: App, a: Axis): (r: App)
    ensures r.sectionAxis == Some(a) && r == app.(sectionAxis := r.sectionAxis)
  {
    app.(sectionAxis := Some(a))
  }

  /** `hideSectionBox`: the handle is hidden and drives nothing. */
  function HideSectionBox(app: App): (r: App)
    ensures r.sectionAxis.None? && r == app.(sectionAxis := r.sectionAxis)
  {
    app.(sectionAxis := None)
  }

  /** `updateSectionPlaneByBox` after the handle moved to (`relX`, `relY`) of
      the viewport: without an axis or a model nothing changes; otherwise the
      plane of the axis gets the swept constant and becomes the renderer's only
      clipping plane, replacing the box planes if they were active. The source
      dereferences the axis' plane, so it must exist. */
  function UpdateSectionPlaneByBox(app: App, relX: real, relY: real, bounds: Box): (r: App)
    requires app.sectionAxis.Some? ==> app.sectionAxis.value in app.section
    ensures app.sectionAxis.None? || app.current.None? ==> r == app
    ensures app.sectionAxis.Some? && app.current.Some? ==>
      var a := app.sectionAxis.value;
      && r.section.Keys == app.section.Keys
      && ActivePlanes(r) == [r.section[a]]
      && r.section[a].normal == app.section[a].normal
      && (forall b :: b in app.section && b != a ==> r.section[b] == app.section[b])
      && (app.section[a].normal == SectionNormal(a) ==>
            forall p :: Keeps(r.section[a], p) <==> Get(p, a) <= SectionConstant(a, relX, relY, bounds))
      && r == app.(section := r.section, clip := SingleClip(a))
  {
    if app.sectionAxis.None? || app.current.None? then app
    else
      var a := app.sectionAxis.value;
      var pl := app.section[a].(constant := SectionConstant(a, relX, relY, bounds));
      var r := app.(section := app.section[a := pl], clip := SingleClip(a));
      forall p | app.section[a].normal == SectionNormal(a)
        ensures Keeps(r.section[a], p) <==> Get(p, a) <= SectionConstant(a, relX, relY, bounds)
      {
        SectionPlaneSweep(a, relX, relY, bounds, p);
      }
      r
  }
}

=== FILE: toolbar.dfy ===
/** The section toolbar. Each axis button has two click listeners, run in
    registration order: `enableSectionPlane(axis)` then `showSectionBox(axis)`,
    and later `enableSectionBox`. The reset button runs `resetSectionPlanes`
    and `hideSectionBox`, then `disableSectionBox`. */
module Toolbar {
  import opened Wrappers
  import opened Scene
  import opened Clipping
  import opened Viewer
  import opened SectionPlane
  import opened SectionBox

  /** A click on the button for axis `a`. With a model loaded the box planes,
      installed last, replace the single plane; without one the box mode
      returns early and the single plane stays. */
  function ClickSection(app: App, a: Axis, bounds: Box): (r: App)
    ensures r.section.Keys == {a} && r.section[a] == InitialSectionPlane(a) && r.sectionAxis == Some(a)
    ensures app.current.Some? ==> ActivePlanes(r) == FacePlanesOf(app.boxNormals, bounds) && r.localClipping
    ensures app.current.None? ==> ActivePlanes(r) == [InitialSectionPlane(a)] && r.box == app.box
    ensures r.current == app.current && r.geoms == app.geoms && r.mats == app.mats
  {
    EnableSectionBox(ShowSectionBox(EnableSectionPlane(app, a), a), bounds)
  }

  /** A click on the reset button: no section plane, no handle axis, no box,
      nothing clipped and local clipping off. */
  function ClickReset(app: App): (r: App)
    ensures ActivePlanes(r) == [] && r.section == map[] && r.sectionAxis.None?
    ensures r.box == NoBox && !r.localClipping
    ensures r.current == app.current && r.geoms == app.geoms && r.mats == app.mats
  {
    DisableSectionBox(HideSectionBox(ResetSectionPlanes(app)))
  }

  /** With a model, the region left visible after a section click: with the
      program's outward normals, the box mirrored through the origin; with the
      inward ones, exactly the box. */
  lemma SectionClickKeepsBox(app: App, a: Axis, bounds: Box, p: Vec3)
    requires app.current.Some?
    ensures app.boxNormals == Written ==>
      (KeptByAll(ActivePlanes(ClickSection(app, a, bounds)), p) <==> InBox(bounds, MirrorPoint(p)))
    ensures app.boxNormals == Inward ==>
      (KeptByAll(ActivePlanes(ClickSection(app, a, bounds)), p) <==> InBox(bounds, p))
  {
    if app.boxNormals == Written {
      AsWrittenKeepsMirroredBox(bounds, p);
    } else {
      FacePlanesKeepBox(bounds, p);
    }
  }

  /** As written, a section click on the box from (1,1,1) to (2,2,2) clips
      away the box's own centre; the inward normals keep it. */
  lemma AsWrittenClickClipsBoxCentre(app: App, a: Axis)
    requires app.current.Some?
    ensures var b := Box(Vec3(1.0, 1.0, 1.0), Vec3(2.0, 2.0, 2.0));
            var c := Vec3(1.5, 1.5, 1.5);
      && InBox(b, c)
      && !KeptByAll(ActivePlanes(ClickSection(app.(boxNormals := Written), a, b)), c)
      && KeptByAll(ActivePlanes(ClickSection(app.(boxNormals := Inward), a, b)), c)
  {
    var b := Box(Vec3(1.0, 1.0, 1.0), Vec3(2.0, 2.0, 2.0));
    var c := Vec3(1.5, 1.5, 1.5);
    SectionClickKeepsBox(app.(boxNormals := Written), a, b, c);
    SectionClickKeepsBox(app.(boxNormals := Inward), a, b, c);
  }

  /** Without a model, a section click leaves the half-space at or below 0 on `a`. */
  lemma SectionClickWithoutModel(app: App, a: Axis, bounds: Box, p: Vec3)
    requires app.current.None?
    ensures KeptByAll(ActivePlanes(ClickSection(app, a, bounds)), p) <==> Get(p, a) <= 0.0
  {
    var pl := InitialSectionPlane(a);
    assert ActivePlanes(ClickSection(app, a, bounds)) == [pl];
    assert [pl][0] == pl;
    assert KeptByAll([pl], p) <==> Keeps(pl, p);
    DotUnit(a, -1.0, p);
  }

  /** Dragging the on-screen handle after a section click with a model puts the
      single plane back in charge: the box stays on screen but clips nothing. */
  lemma DragAfterBoxOverridesBox(app: App, a: Axis, bounds: Box, relX: real, relY: real, box: Box)
    requires app.current.Some?
    ensures var s := ClickSection(app, a, bounds);
            var r := UpdateSectionPlaneByBox(s, relX, relY, box);
      && s.box.helper.Some? && r.box == s.box
      && ActivePlanes(r) == [Plane(SectionNormal(a), SectionConstant(a, relX, relY, box))]
  {
  }

  /** The event handlers keep the invariant. */
  lemma ClickSectionInv(app: App, a: Axis, bounds: Box)
    requires Inv(app)
    ensures Inv(ClickSection(app, a, bounds))
  {
    var s := ShowSectionBox(EnableSectionPlane(app, a), a);
    if app.current.Some? {
      EnableKeepsIds(s, bounds);
    }
  }

  lemma ClickResetInv(app: App)
    requires Inv(app)
    ensures Inv(ClickReset(app))
  {
  }

  lemma DragInv(app: App, relX: real, relY: real, bounds: Box)
    requires Inv(app)
    ensures Inv(UpdateSectionPlaneByBox(app, relX, relY, bounds))
  {
  }

  lemma ObjectChangeInv(app: App, i: nat, t: real)
    requires Inv(app) && i < |app.box.meshes|
    ensures app.box.meshes[i].planeIdx < |app.box.planes|
    ensures Inv(ObjectChange(app, i, t))
  {
    ObjectChangeMovesFace(app, i, t, Vec3(0.0, 0.0, 0.0));
  }

  lemma ToggleWireframeInv(app: App)
    requires Inv(app)
    ensures Inv(ToggleWireframe(app))
  {
  }
}

=== FILE: viewer.dfy ===
/** The viewer's process-wide state (`scene`, `currentModel`, `mixer`,
    `animations`, the renderer's clipping fields, the section-plane and
    section-box variables) as one record, and the wireframe toggle. */
module Viewer {
  import opened Wrappers
  import opened Scene
  import opened Clipping
  import Arena
  import MaterialOpt

  /** Identity of an object that can be added to the scene. */
  type ObjId = nat

  /** `currentModel`: the object added to the scene and the tree under it. */
  datatype Model = Model(id: ObjId, root: Node)

  datatype AnimationClip = AnimationClip(name: string)

  /** What `renderer.clippingPlanes` holds. `BoxClip` is the very array bound to
      `sectionBoxPlanes`, so edits to those planes are seen by the renderer;
      `SingleClip(a)` is a one-element array holding the section plane of `a`. */
  datatype RendererClip = NoClip | SingleClip(axis: Axis) | BoxClip

  /** The `Box3Helper` outline. */
  datatype Helper = Helper(id: ObjId, bounds: Box)

  /** A draggable face slab; `planeIdx` is the index of its clipping plane. */
  datatype Handle = Handle(id: ObjId, pos: Vec3, size: Vec3, planeIdx: nat, face: Face)

  /** A `TransformControls` attached to the handle `target`, with its visible axes. */
  datatype Control = Control(id: ObjId, target: ObjId, showX: bool, showY: bool, showZ: bool)

  /** `sectionBoxHelper`, `sectionBoxPlanes`, `sectionBoxControls`, `sectionBoxMeshes`. */
  datatype SectionBox = SectionBox(helper: Option<Helper>, planes: seq<Plane>, controls: seq<Control>, meshes: seq<Handle>)

  const NoBox := SectionBox(None, [], [], [])

  /** `scene` is the set of objects added to the scene by the viewer; `section`
      maps an axis to `sectionPlaneX/Y/Z` when that variable is not null;
      `disposed` records every control whose `dispose` was called.
      `boxNormals` is fixed for a run: which face normals the box code uses,
      the outward ones of the program (`Written`) or the inward correction. */
  datatype App = App(
    scene: set<ObjId>,
    nextId: nat,
    current: Option<Model>,
    geoms: seq<Geometry>,
    mats: seq<Material>,
    enableLod: bool,
    mixer: Option<ObjId>,
    animations: seq<AnimationClip>,
    clip: RendererClip,
    localClipping: bool,
    section: map<Axis, Plane>,
    sectionAxis: Option<Axis>,
    box: SectionBox,
    boxNormals: Normals,
    disposed: set<ObjId>)

  /** The state after start-up, before any model is loaded. */
  function Initial(enableLod: bool, boxNormals: Normals): App
  {
    App({}, 0, None, [], [], enableLod, None, [], NoClip, false, map[], None, NoBox, boxNormals, {})
  }

  /** The planes the renderer clips with. */
  function ActivePlanes(app: App): seq<Plane>
  {
    match app.clip
    case NoClip => []
    case SingleClip(a) => if a in app.section then [app.section[a]] else []
    case BoxClip => app.box.planes
  }

  function HandleIds(hs: seq<Handle>): set<ObjId>
  {
    set i | 0 <= i < |hs| :: hs[i].id
  }

  function ControlIds(cs: seq<Control>): set<ObjId>
  {
    set i | 0 <= i < |cs| :: cs[i].id
  }

  /** The section box is either fully absent or complete: six planes with the
      normals `nm`, handles and controls, in face order. */
  predicate BoxShape(box: SectionBox, nm: Normals)
  {
    if box.helper.None? then box.planes == [] && box.controls == [] && box.meshes == []
    else
      && |box.planes| == 6 && |box.controls| == 6 && |box.meshes| == 6
      && forall i :: 0 <= i < 6 ==>
           && box.planes[i].normal == FaceNormalOf(nm, Faces[i])
           && box.meshes[i].planeIdx == i && box.meshes[i].face == Faces[i]
           && box.controls[i].target == box.meshes[i].id
  }

  /** Every object the state refers to was allocated before `nextId`. */
  predicate IdsBelow(app: App)
  {
    && (forall id :: id in app.scene ==> id < app.nextId)
    && (app.current.Some? ==> app.current.value.id < app.nextId)
    && (app.box.helper.Some? ==> app.box.helper.value.id < app.nextId)
    && (forall i :: 0 <= i < |app.box.meshes| ==> app.box.meshes[i].id < app.nextId)
    && (forall i :: 0 <= i < |app.box.controls| ==> app.box.controls[i].id < app.nextId)
  }

  /** What the event handlers keep true: the renderer never holds a null
      section plane, the on-screen section handle always has its plane, and the
      box planes are only active while the box exists. */
  predicate Inv(app: App)
  {
    && (app.clip.SingleClip? ==> app.clip.axis in app.section)
    && (app.sectionAxis.Some? ==> app.sectionAxis.value in app.section)
    && (app.clip.BoxClip? ==> app.box.helper.Some?)
    && BoxShape(app.box, app.boxNormals)
    && IdsBelow(app)
  }

  lemma InitialInv(enableLod: bool, boxNormals: Normals)
    ensures Inv(Initial(enableLod, boxNormals)) && ActivePlanes(Initial(enableLod, boxNormals)) == []
  {
  }

  /** `toggleWireframe`: with a model loaded, each visited mesh flips its
      material's `wireframe`, so a material shared by k meshes ends up flipped
      exactly when k is odd. Only the materials change. */
  function ToggleWireframe(app: App): (r: App)
    ensures r == app.(mats := r.mats) && |r.mats| == |app.mats|
    ensures app.current.None? ==> r == app
    ensures app.current.Some? ==> forall k :: 0 <= k < |app.mats| ==>
      r.mats[k] == app.mats[k].(wireframe := app.mats[k].wireframe != (Arena.Count(MatRefs(app.current.value.root), k) % 2 == 1))
  {
    if app.current.None? then app
    else
      var r := app.(mats := MaterialOpt.ToggleWireframes(app.current.value.root, app.mats));
      ToggleFacts(app.current.value.root, app.mats, r.mats);
      r
  }

  lemma ToggleFacts(root: Node, mats: seq<Material>, out: seq<Material>)
    requires out == MaterialOpt.ToggleWireframes(root, mats)
    ensures forall k :: 0 <= k < |mats| ==>
      out[k] == mats[k].(wireframe := mats[k].wireframe != (Arena.Count(MatRefs(root), k) % 2 == 1))
  {
    forall k | 0 <= k < |mats| {
      MaterialOpt.ToggleParity(root, mats, k);
    }
  }
}

=== FILE: wrappers.dfy ===
/** Optional values and results with an error, used wherever the viewer's
    JavaScript uses `null`/`undefined` or throws. */
module Wrappers {

  datatype Option<+T> = None | Some(value: T)

  datatype Result<+T, +E> = Ok(value: T) | Err(error: E)
}
